=== FILE: README.md ===
# ai-assignments in Dafny

A Dafny model of the deterministic parts of the LLM-agent demos in this
repository. It covers the bookkeeping around the model, tool, index and network
calls. Each foreign call is an input of the model:

- the model's reply is an `Option<string>`;
- a tool call is its content texts or the message of the exception it raised;
- the FAISS search answer is a row of positions;
- a fetched page is a `Result`;
- `json.loads` and Pydantic validation are function parameters.

What is left is pure functions over sequences and strings, plus a few immutable
state records:

| module | what it models |
|---|---|
| `Wrappers` | `Option` and `Result` |
| `PyStr` | the Python `str` operations the code relies on: `isspace`, `strip`, `split()`, `split(c)`, `count`, `splitlines`, `join`, `str(int)` |
| `PyRepr` | Python's `repr()` of a `str`: the choice of quote and the escapes |
| `Json` | decoded JSON values with Python truthiness, `dict.get`, `str()` and `repr()` |
| `Markdown` | `remove_markdown`: one model for its three identical copies |
| `VectorMemory` | embeddings-demo memory: overlapping word-window chunking, the parallel `documents`/`urls` lists, and mapping FAISS positions back to chunks |
| `IngestServer` | embeddings-demo ingest service, run sequentially: the enqueue route, one worker over a FIFO task queue, and the poll route that drains the FIFO result queue |
| `Planner` | `generate_plan`: the rendered prompt fragments and the choice of the plan line |
| `SearchAction` | embeddings-demo `Action`: search replies with history, and page previews |
| `ToolCatalog` | the numbered tool list, rendered the same way in agent-layers-demo and cot-demo |
| `AgentMemory` | the agent-layers `Memory` record and its methods |
| `AgentDecision` | `decide_next_step` after validation |
| `AgentAction` | `execute_action` |
| `LayersLoop` | the agent-layers main loop as a state machine |
| `CotLoop` | the cot-demo main loop as a state machine |
| `StrOrder` | Python's string order, and `sorted(set(xs))` |
| `NewsTables` | start-with-agent: date extraction, analysis-table extraction, and their two routes |

Three facts about the code shape the model:

- The loops in cot-demo/main.py and agent-layers-demo/main.py are `while True`
  loops with no step limit; a run is as long as the inputs it is given.
- Neither loop checks for a repeated tool call, and tool calls are not batched.
- Nothing is persisted, and completed tasks are not kept in a map keyed by id: a
  result waits in the FIFO result queue until one poll consumes it.

## Model

| member | source | states |
|---|---|---|
| PyStr.Strip | cot-demo/main.py:162 | the result is the text with its leading and trailing whitespace cut off: it stands in the text with only whitespace before and after it, it is empty exactly when the text is all whitespace, and otherwise it begins and ends with a non-space |
| PyStr.StripIdempotent | embeddings-demo/backend/cognitive_layers/decision.py:77-84 | stripping an already stripped reply changes nothing |
| PyStr.SplitWords | embeddings-demo/backend/cognitive_layers/memory.py:15 | every piece of `split()` is a non-empty word without whitespace |
| PyStr.SplitWordsEmpty | embeddings-demo/backend/cognitive_layers/memory.py:15 | `split()` finds no word exactly when the text is empty or all whitespace |
| PyStr.SplitWordsJoin | embeddings-demo/backend/cognitive_layers/memory.py:15-19 | words joined by single spaces split back into the same words |
| PyStr.Split | start-with-agent/app.py:104 | splitting on a one-character separator gives at least one piece, and no piece holds the separator |
| PyStr.JoinSplit | start-with-agent/app.py:104 | joining the pieces of a split with the separator gives the text back |
| PyStr.SplitJoin | start-with-agent/app.py:104 | splitting a join of separator-free pieces gives the pieces back |
| PyStr.SplitJoinThen | start-with-agent/app.py:104 | a join of separator-free pieces, then a separator and any tail, splits into the pieces followed by the split of the tail |
| PyStr.SplitCount | start-with-agent/app.py:104-105 | a split has one piece more than the text has separators |
| PyStr.SplitLines | embeddings-demo/backend/cognitive_layers/decision.py:80 | no line of `splitlines()` holds a line boundary |
| PyStr.JoinSplitLines | embeddings-demo/backend/cognitive_layers/decision.py:80 | for text broken only by "\n" and not ending in one, joining the lines with "\n" gives the text back |
| PyStr.NatToString | agent-layers-demo/memory.py:39 | `str(n)` is a non-empty string of decimal digits that denotes n, with no leading zero unless n is 0 |
| Json.Get | cot-demo/main.py:172 | `dict.get` finds a value exactly when the key is present, and that value is the key's entry |
| Json.Repr | agent-layers-demo/decision.py:22 | `repr()` of a decoded value: a string sits between two equal quotes of the kind Python picks, a list between `[` and `]`, a dict between `{` and `}` |
| Json.ReprStrReadsBack | agent-layers-demo/decision.py:22 | the text between the quotes of a string's `repr()` reads back as the string |
| Json.Str | cot-demo/main.py:222 | `str()` of a decoded string is the string itself, of None is "None", and of a list or dict is bracketed as its `repr()` |
| PyRepr.QuoteFor | agent-layers-demo/decision.py:22 | `repr` of a string uses double quotes exactly when the text holds a single quote and no double quote, and single quotes otherwise |
| PyRepr.EscapeRoundTrip | agent-layers-demo/decision.py:22 | reading the escapes of a string's `repr` back gives the string again, whatever text follows |
| PyRepr.ReprRoundTrip | agent-layers-demo/decision.py:22 | `repr` of a string is the text between two equal quotes of the chosen kind, and that text reads back as the string, so `repr` loses nothing |
| PyRepr.PlainRepr | agent-layers-demo/decision.py:22 | a printable text with no backslash and no single quote is shown as itself between single quotes |
| PyRepr.ApostropheUsesDoubleQuotes | agent-layers-demo/decision.py:22 | `repr("it's")` is `"it's"`: the apostrophe switches the quotes and is not escaped |
| Markdown.StripOpeners | agent-layers-demo/utils.py:28 | the first substitution never lengthens the text |
| Markdown.RemoveClosers | agent-layers-demo/utils.py:29 | the second substitution never lengthens the text |
| Markdown.RemoveMarkdown | agent-layers-demo/utils.py:26-30 | the output is never longer than the input |
| Markdown.StripOpenersIdle | agent-layers-demo/utils.py:28 | a text where no fence has a newline after it is unchanged by the first substitution |
| Markdown.RemoveClosersIdle | agent-layers-demo/utils.py:29 | a text without a newline, or without a fence, is unchanged by the second substitution |
| Markdown.NoFenceUnchanged | embeddings-demo/backend/utils.py:13-15 | a reply with no "```" comes back unchanged |
| Markdown.SingleLineUnchanged | agent-layers-demo/utils.py:28-29 | a reply without a newline comes back unchanged, since both patterns need one |
| Markdown.TrailingFenceSurvives | agent-layers-demo/utils.py:28-29 | "abc```" survives, because no newline adjoins its fence |
| Markdown.ClosingFenceRemoved | embeddings-demo/backend/utils.py:14 | a fence-free body followed by "\n```" loses exactly that closing fence |
| Markdown.FencedBlock | cot-demo/main.py:24-28 | "```tag\nbody\n```" reduces to the body for any one-line tag (json, python or any other) |
| Markdown.OpenersBeforeClosers | embeddings-demo/backend/utils.py:13-14 | the opener pass runs first: on "\n```abc\n" it deletes "```abc\n" and leaves "\n", where the closer pass alone would leave "abc\n" |
| VectorMemory.RangeCountIsCeiling | embeddings-demo/backend/cognitive_layers/memory.py:18 | `range(start, n, stride)` yields the fewest steps that reach n: (c-1)·stride < n-start <= c·stride, and none when start >= n |
| VectorMemory.ChunksFrom | embeddings-demo/backend/cognitive_layers/memory.py:18-20 | one chunk per value of the range |
| VectorMemory.ChunkAt | embeddings-demo/backend/cognitive_layers/memory.py:18-19 | chunk j is the window of words at start + j·stride joined by single spaces, and that start lies inside the text |
| VectorMemory.CreateChunks | embeddings-demo/backend/cognitive_layers/memory.py:13-22 | it fails exactly when chunk_size == overlap (zero range step); a negative step gives no chunk |
| VectorMemory.ChunkCount | embeddings-demo/backend/cognitive_layers/memory.py:15-22 | with a positive step, n words give ceil(n / step) chunks and no words give none |
| VectorMemory.BlankTextNoChunks | embeddings-demo/backend/cognitive_layers/memory.py:15-22 | empty or whitespace-only text gives [] |
| VectorMemory.ChunkWords | embeddings-demo/backend/cognitive_layers/memory.py:15-20 | chunk j is words[j·step : j·step+chunk_size] joined by single spaces; it splits back into exactly those words (at most chunk_size), so re-joining them gives it back |
| VectorMemory.CoveringChunk | embeddings-demo/backend/cognitive_layers/memory.py:18-19 | for each word it returns a chunk index whose window holds that word |
| VectorMemory.EveryWordCovered | embeddings-demo/backend/cognitive_layers/memory.py:18-19 | every word lies in the window of at least one chunk of the range |
| VectorMemory.ConsecutiveOverlap | embeddings-demo/backend/cognitive_layers/memory.py:18-19 | a full chunk's last `overlap` words are the next chunk's first `overlap` words |
| VectorMemory.WindowOverlap | embeddings-demo/backend/cognitive_layers/memory.py:19 | two full windows stride apart share size-stride words |
| VectorMemory.DefaultsOnThousandWords | embeddings-demo/backend/cognitive_layers/memory.py:13-22 | with the defaults 1000/100, a 1000-word text gives two chunks; the second is its last 100 words |
| VectorMemory.Repeat | embeddings-demo/backend/cognitive_layers/memory.py:42 | `[url] * n` has n entries, each the url |
| VectorMemory.ProcessDocument | embeddings-demo/backend/cognitive_layers/memory.py:24-44 | it fails only when creating the missing index raises. Otherwise it appends the chunks to `documents` and one copy of the url per chunk to `urls`, keeps earlier entries, returns the chunk count, and leaves the index with no new vectors |
| VectorMemory.ProcessKeepsAligned | embeddings-demo/backend/cognitive_layers/memory.py:41-42 | `documents` and `urls` stay the same length |
| VectorMemory.PyIndex | embeddings-demo/backend/cognitive_layers/memory.py:62-63 | Python indexing succeeds exactly for -len <= i < len, and a negative index counts from the end |
| VectorMemory.Kept | embeddings-demo/backend/cognitive_layers/memory.py:59-60 | every kept position is below len(documents) and comes from the answer, and every answer position below len(documents) is kept |
| VectorMemory.KeptIsFilter | embeddings-demo/backend/cognitive_layers/memory.py:59-60 | the filter keeps one position exactly when it is below len(documents), and filtering two pieces of an answer gives the first piece's kept positions followed by the second's, so the answer's order is kept |
| VectorMemory.ResolveHits | embeddings-demo/backend/cognitive_layers/memory.py:58-66 | the lookup raises exactly when a kept position is below -len(documents); otherwise hit j is the document and url at the Python position of kept position j |
| VectorMemory.Search | embeddings-demo/backend/cognitive_layers/memory.py:46-66 | no index, or an empty index, gives []; otherwise a failed index search is passed on, the search raises exactly when some returned position is below -len(documents), and on success hit j is the document and url at the Python position of the j-th position the `idx < len(documents)` filter keeps; never more hits than the index returned |
| VectorMemory.SearchHitsPaired | embeddings-demo/backend/cognitive_layers/memory.py:55-64 | for a top-k answer there are at most k hits, each a stored chunk with its own url, paired in order with the positions the filter keeps |
| VectorMemory.SearchEmptyAfterProcessing | embeddings-demo/backend/cognitive_layers/memory.py:38-49 | since the vector add is commented out, search still gives [] after any processing |
| VectorMemory.PaddingRepeatsLastChunk | embeddings-demo/backend/cognitive_layers/memory.py:59-64 | with one stored chunk, the padded answer [0, -1, -1] returns that chunk three times |
| VectorMemory.KeptValid | embeddings-demo/backend/cognitive_layers/memory.py:59-60 | exactly the positions 0 <= idx < len(documents) are kept |
| VectorMemory.KeptValidIsFilter | embeddings-demo/backend/cognitive_layers/memory.py:59-60 | the corrected filter keeps one position exactly when 0 <= idx < len(documents), and keeps the answer's order |
| VectorMemory.SearchCorrected | embeddings-demo/backend/cognitive_layers/memory.py:46-66 | the corrected search never raises on an answer, and returns one hit per valid position, paired with its url |
| VectorMemory.PaddingDroppedWhenCorrected | embeddings-demo/backend/cognitive_layers/memory.py:59-64 | the corrected search returns the single chunk once for [0, -1, -1] |
| IngestServer.RunTask | embeddings-demo/backend/mcp_server.py:28-51 | a `process_url` task posts exactly one result with its id: success with the chunk count when extraction and storage succeed, error with the extractor's message or the exception text otherwise; other task types post nothing |
| IngestServer.WorkerStep | embeddings-demo/backend/mcp_server.py:24-45 | the worker takes the oldest task, appends its results to the result queue and keeps the memory that task leaves; with no task it stays blocked |
| IngestServer.PostedIds | embeddings-demo/backend/mcp_server.py:29-44 | the ids one task posts: its own id for `process_url`, none otherwise |
| IngestServer.RunWorker | embeddings-demo/backend/mcp_server.py:24-45 | the worker takes tasks from the front of the queue, one per step, empties it once there are as many steps as tasks, and only appends to the result queue |
| IngestServer.WorkerIsFifo | embeddings-demo/backend/mcp_server.py:21-28 | after n tasks the queue has lost exactly its first n, and the results posted carry the ids of the `process_url` tasks among them, in queue order |
| IngestServer.Submit | embeddings-demo/backend/mcp_server.py:58-78 | a missing or empty url gives 400 "URL is required" and enqueues nothing; otherwise exactly one task is enqueued and its id is returned |
| IngestServer.Drain | embeddings-demo/backend/mcp_server.py:84-87 | the reply is the first queued result with the id, and that result and every one ahead of it are removed; with no match the queue ends empty |
| IngestServer.Poll | embeddings-demo/backend/mcp_server.py:80-92 | the reply is "processing" exactly when no queued result has the id, and then the result queue ends empty; the task queue and memory stay unchanged |
| IngestServer.DeliveredOnce | embeddings-demo/backend/mcp_server.py:84-92 | with distinct ids a result is delivered at most once: a second poll answers "processing" |
| IngestServer.SubmitWorkPoll | embeddings-demo/backend/mcp_server.py:24-92 | submit, one worker step and a poll deliver exactly that task's outcome and leave both queues empty |
| Planner.MemoryLines | embeddings-demo/backend/cognitive_layers/decision.py:25 | one "- text" line per memory item, in order |
| Planner.MemoryBlock | embeddings-demo/backend/cognitive_layers/decision.py:25 | "None" exactly when there are no items, otherwise the lines joined by newlines |
| Planner.MemoryBlockLines | embeddings-demo/backend/cognitive_layers/decision.py:25 | the block splits back into one line per item (texts without line breaks) |
| Planner.ToolContext | embeddings-demo/backend/cognitive_layers/decision.py:27 | empty exactly when the descriptions are None or empty, otherwise the header followed by them |
| Planner.ToolHintText | embeddings-demo/backend/cognitive_layers/decision.py:51 | a missing or empty tool hint renders as "None", a non-empty one as itself, so the rendered hint is never empty |
| Planner.StripAll | embeddings-demo/backend/cognitive_layers/decision.py:80-81 | each line stripped, same count |
| Planner.FirstPlanText | embeddings-demo/backend/cognitive_layers/decision.py:80-82 | the first line that starts with FUNCTION_CALL: or FINAL_ANSWER:, with no earlier one; none exactly when no line does |
| Planner.SelectPlan | embeddings-demo/backend/cognitive_layers/decision.py:80-84 | the plan carries a prefix or is the whole reply |
| Planner.GeneratePlan | embeddings-demo/backend/cognitive_layers/decision.py:72-88 | a failed call gives "FINAL_ANSWER: [unknown]"; otherwise the plan carries a prefix or is the whole stripped reply |
| Planner.FirstPlanOfLines | embeddings-demo/backend/cognitive_layers/decision.py:80-82 | the first line whose strip carries a prefix is the one selected |
| Planner.FirstPlanLineChosen | embeddings-demo/backend/cognitive_layers/decision.py:77-82 | the plan is exactly the first prefixed line, stripped |
| Planner.NoPlanLineFallback | embeddings-demo/backend/cognitive_layers/decision.py:77-84 | with no prefixed line the plan is the whole stripped reply |
| Planner.SelectPlanFallback | embeddings-demo/backend/cognitive_layers/decision.py:84 | with no prefixed line the selection returns the reply unchanged |
| Planner.PlanIsStripped | embeddings-demo/backend/cognitive_layers/decision.py:77-88 | every plan, the fallback answer included, is already stripped |
| SearchAction.ExecuteSearch | embeddings-demo/backend/cognitive_layers/action.py:9-28 | empty results give "no_results" with the message and leave history unchanged; otherwise exactly one {query, results} entry is appended, and the reply passes the results through with their count |
| SearchAction.HistoryRecordsNonEmptySearches | embeddings-demo/backend/cognitive_layers/action.py:11-21 | over any series of searches, the history gains exactly the searches that found something, in order, after the earlier entries |
| SearchAction.Clip | embeddings-demo/backend/cognitive_layers/action.py:44 | a preview of at most 200 characters is kept; a longer one becomes its first 200 characters and "...", 203 in all |
| SearchAction.GetPagePreview | embeddings-demo/backend/cognitive_layers/action.py:30-50 | any failure gives success false with its message; the title falls back to the url; the preview is the clipped first paragraph or "" |
| SearchAction.ClipIdempotent | embeddings-demo/backend/cognitive_layers/action.py:44 | clipping a clipped preview changes nothing |
| ToolCatalog.MentionsProperties | agent-layers-demo/memory.py:31 | `"properties" in params` raises exactly on None, a boolean or a number |
| ToolCatalog.ParamDetails | agent-layers-demo/memory.py:32-35 | one "name: type" entry per property, in schema order; the comprehension raises exactly when a property's info is not a dict |
| ToolCatalog.TypeText | agent-layers-demo/memory.py:33 | "unknown" for a missing type, otherwise `str()` of the type entry |
| ToolCatalog.ParamsText | agent-layers-demo/memory.py:31-38 | "no parameters" when the schema has no "properties"; a failing test or lookup raises; with properties, the details joined by ", " |
| ToolCatalog.ToolLine | agent-layers-demo/memory.py:27-41 | the line starts with "N. ", and is "N. Error processing tool" when reading the schema raises, otherwise "N. name(params) - desc" |
| ToolCatalog.ToolLines | agent-layers-demo/memory.py:26-41 | one line per tool, in order, numbered from the given position; a failing tool does not stop later ones |
| ToolCatalog.ToolsDescription | agent-layers-demo/memory.py:41 | the joined description is empty exactly when there are no tools, and otherwise opens with the first tool's line, numbered "1. " |
| ToolCatalog.ErrorLineExactlyOnRaise | cot-demo/main.py:97-101 | a tool's line is the error line exactly when reading its schema raises |
| ToolCatalog.OneLinePerTool | cot-demo/main.py:75-103 | the description splits back into one line per tool, line k numbered k+1 |
| AgentMemory.Fresh | agent-layers-demo/memory.py:10-16 | `Memory()` starts with no history, no responses, an empty tools description and falsy (None) facts |
| AgentMemory.UpdateToolsDescription | agent-layers-demo/memory.py:18-42 | the description is replaced by the rendered tool list; nothing else changes |
| AgentMemory.AddToHistory | agent-layers-demo/memory.py:44-52 | exactly one pair is appended; earlier pairs and all other fields stay |
| AgentMemory.StoreExtractedFacts | agent-layers-demo/memory.py:54-61 | the facts are overwritten; nothing else changes |
| AgentMemory.UpdatePerceptionResponse | agent-layers-demo/memory.py:63-70 | the response is appended; nothing else changes |
| AgentMemory.Wrapped | agent-layers-demo/memory.py:88 | the stored form is a dict whose "Assistant" entry is the response |
| AgentMemory.UpdateDecisionResponse | agent-layers-demo/memory.py:81-88 | `{"Assistant": response}` is appended; nothing else changes |
| AgentMemory.PerceptionsInOrder | agent-layers-demo/memory.py:63-79 | the getter returns the earlier responses followed by every new one, in order; nothing else changes |
| AgentMemory.DecisionsInOrder | agent-layers-demo/memory.py:81-97 | the getter returns the earlier entries, then each new response wrapped, in insertion order |
| AgentDecision.Query | agent-layers-demo/decision.py:22 | the query is the system prompt, a blank line, then `str()` of the facts |
| AgentDecision.MapResponse | agent-layers-demo/decision.py:39-45 | a truthy function_call wins with its params; otherwise a truthy final_answer gives action "final_answer"; otherwise no action |
| AgentDecision.DecideNextStep | agent-layers-demo/decision.py:14-45 | it raises exactly when the facts are falsy; no reply, an empty reply or a failed validation gives no action; otherwise the mapped response |
| AgentDecision.DecidedActionOrigin | agent-layers-demo/decision.py:26-45 | an action is only decided for a filled reply that validates; it is never empty, and it is either the record's filled `function_call` with its `params`, or "final_answer" with the record's filled `final_answer` text when there is no function call |
| AgentAction.Unpack | agent-layers-demo/action.py:19 | unpacking succeeds exactly on a list of two items or a string of two characters |
| AgentAction.ResultField | agent-layers-demo/action.py:16 | succeeds exactly when the text parses to a dict with a "result" key, giving that entry |
| AgentAction.IsCorrect | agent-layers-demo/action.py:22-23 | succeeds exactly on a parsed dict; the answer is true exactly when an "is_correct" entry is present and truthy |
| AgentAction.ExpenseFigures | agent-layers-demo/action.py:29-30 | each figure is absent exactly when neither its `*_2040` key nor its plain key is present; otherwise it is the value stored under the `*_2040` key when that key is present, and under the plain key when not |
| AgentAction.ExecuteAction | agent-layers-demo/action.py:7-33 | calculate with content gives ("Result is v. Let's verify this step.", v), and without content (None, None); verify succeeds exactly when the params unpack into two values and the call returns content that parses to a dict, and then gives "Verified. Next step?" or "Not verified. ..." with None; final_answer succeeds exactly when its params are a text that parses to a dict, and then gives (None, None); show_reasoning and unknown actions give (None, None); only calculate returns a response |
| AgentAction.UserInputOnlyFromCalculateOrVerify | agent-layers-demo/action.py:7-33 | an action that succeeds with a truthy user input is calculate or verify |
| LayersLoop.Start | agent-layers-demo/main.py:43-49 | without facts the run returns before the loop; otherwise the facts are stored and the loop starts |
| LayersLoop.Extend | agent-layers-demo/main.py:86-87 | the prompt only grows; it changes exactly when the user input is truthy, and then by "\nUser: " and that input |
| LayersLoop.Record | agent-layers-demo/main.py:88-89 | only the history changes; it gains exactly the (user input, response) pair when the response is truthy, and nothing otherwise |
| LayersLoop.ActionReplyApplied | agent-layers-demo/main.py:85-89 | after an action returns its pair the loop keeps running, the prompt gains "\nUser: " and the user input exactly when that input is truthy, and the history gains the pair exactly when the assistant response is truthy |
| LayersLoop.Step | agent-layers-demo/main.py:76-89 | the loop stops (Completed) exactly when the decision has no action; the prompt only grows; history grows by at most one and earlier pairs stay; the facts stay |
| LayersLoop.Act | agent-layers-demo/main.py:85-89 | the step crashes exactly when the action raises; otherwise the prompt grows and history gains at most one pair |
| LayersLoop.Run | agent-layers-demo/main.py:76-89 | a stopped loop stays stopped over any further inputs, so a run still going was going from the start |
| LayersLoop.RunOnlyExtends | agent-layers-demo/main.py:76-89 | over any run the prompt only grows, recorded pairs never change, the facts stay, and a stopped loop stays stopped |
| LayersLoop.FinalAnswerKeepsRunning | agent-layers-demo/main.py:76-89 | a final_answer step leaves the state exactly as it was, so the loop asks again |
| LayersLoop.HistoryGrowsOnlyOnCalculate | agent-layers-demo/main.py:85-89 | a step adds to the history only when it is a calculate step whose tool result is truthy, and then it adds exactly ("Result is ...", result) |
| LayersLoop.PromptGrowsOnlyOnCalculateOrVerify | agent-layers-demo/main.py:85-87 | the prompt grows only on a calculate or a verify step, because no other action returns a user input |
| LayersLoop.ZeroResultNotRecorded | agent-layers-demo/main.py:85-89 | a calculate result of 0 extends the prompt but records nothing |
| CotLoop.Called | cot-demo/main.py:172-173 | the function_call entry when it is truthy, none otherwise |
| CotLoop.Dispatch | cot-demo/main.py:172-228 | show_reasoning appends "\nUser: Next step?" and verify "\nUser: Verified. Next step?", whatever the tool returned; calculate records (param, value) and appends "Result is ..." only when the tool gives content; an unknown name stops; final_answer stops, and verifies only after a recorded calculation; no call and no answer changes nothing; a raising show_reasoning or calculate call, verify params that cannot be indexed twice, and a raising verify call each end the run with that exception |
| CotLoop.Parsed | cot-demo/main.py:158-170 | no reply or an empty reply gives nothing to dispatch; otherwise the reply is stripped, its markdown removed, and the result parsed |
| CotLoop.Step | cot-demo/main.py:156-228 | no reply or unparseable JSON stops the loop; a parsed value that is not a dict ends the run with the AttributeError of `result.get`; a stopped loop stays; the prompt only grows; recorded pairs stay; an iteration that keeps running ends by appending "\nAssistant: " and the result |
| CotLoop.DispatchStopEndsStep | cot-demo/main.py:172-228 | when the dispatch of a parsed dict stops the loop, by a break or an exception, that is the outcome of the whole iteration |
| CotLoop.Run | cot-demo/main.py:156-224 | a stopped loop stays stopped over any further inputs, so a run still going was going from the start |
| CotLoop.RunOnlyExtends | cot-demo/main.py:156-224 | over any run the prompt only grows, recorded calculations stay, and a stopped loop stays stopped |
| StrOrder.Insert | start-with-agent/app.py:36 | adding to a strictly sorted list keeps it strictly sorted and adds exactly that element |
| StrOrder.SortedUnique | start-with-agent/app.py:39 | `sorted(list(set(xs)))` is strictly ascending and holds exactly the elements of xs |
| StrOrder.SortedUniqueCanonical | start-with-agent/app.py:39 | two strictly sorted lists with the same elements are equal |
| StrOrder.SortedUniqueIsTheSortedSet | start-with-agent/app.py:39 | the sorted set is the only strictly sorted list of those elements |
| NewsTables.NoThirtiethFebruary | start-with-agent/app.py:35 | 2021-02-30 is no date and 2021-03-01 is |
| NewsTables.LeapDays | start-with-agent/app.py:35 | 2024-02-29 is a date and 2023-02-29 is not |
| NewsTables.CenturyLeapDays | start-with-agent/app.py:35 | 2000-02-29 is a date and 1900-02-29 is not |
| NewsTables.FindDatesFrom | start-with-agent/app.py:43-44 | every date found is shaped dddd-dd-dd and stands in a date cell (pipe, space, date, space, pipe) of the text |
| NewsTables.FindDates | start-with-agent/app.py:43-44 | soundness of the table scan over the whole text |
| NewsTables.CellFound | start-with-agent/app.py:43-44 | a date cell is found unless another cell starts fewer than 14 characters before it |
| NewsTables.AdjacentCellMissed | start-with-agent/app.py:43-44 | two date cells that share their closing pipe yield only the first date |
| NewsTables.Examine | start-with-agent/app.py:32-38 | an item is kept only as a dict whose "date" is a calendar date; it raises exactly on None, booleans, numbers, strings containing "date", lists holding "date" and dicts whose date is not a string; a skipped dict date is no calendar date |
| NewsTables.JsonDates | start-with-agent/app.py:31-39 | the loop fails exactly when some item raises; otherwise it keeps exactly the kept dates |
| NewsTables.ExtractDatesFromNews | start-with-agent/app.py:24-70 | always strictly ascending. Non-JSON input gives the elements the table scan finds. JSON input gives only calendar dates: [] for a non-list or a raising item, otherwise exactly the kept dates |
| NewsTables.InvalidDateDropped | start-with-agent/app.py:32-39 | on the JSON path an invalid date is dropped and a valid one kept |
| NewsTables.TableDateUnchecked | start-with-agent/app.py:40-44 | on the table path a date cell is kept without a calendar check |
| NewsTables.FindFrom | start-with-agent/app.py:101 | the first occurrence of the literal at or after the position |
| NewsTables.RowAfter | start-with-agent/app.py:101-112 | a row exists exactly when five more pipes follow, and its cells are stripped and pipe-free |
| NewsTables.RowFor | start-with-agent/app.py:101-112 | no row without a cell for the date; after the first such cell, a row exactly when five pipes follow, with clean cells |
| NewsTables.RowAfterCells | start-with-agent/app.py:104-112 | five pipe-free cells, each closed by a pipe, read back as those cells stripped, whatever follows |
| NewsTables.RowOfCells | start-with-agent/app.py:101-112 | the row after the first date cell is the five stripped cells in the order impact, movement, volume, correlation, sentiment, whatever precedes or follows |
| NewsTables.StripClean | start-with-agent/app.py:104 | a stripped pipe-free piece is a clean cell |
| NewsTables.ExtractAnalysisData | start-with-agent/app.py:87-117 | each key is a date the scan finds, mapped to its row; every found date with a row is a key; {} when no date cell occurs |
| NewsTables.Field | start-with-agent/app.py:76 | `data.get(key, '')`: the entry when present, '' otherwise |
| NewsTables.ExtractDatesRoute | start-with-agent/app.py:72-85 | 500 exactly when the body is no JSON object; 400 "No news data provided" exactly for a falsy field; otherwise the extracted dates ([] for a non-string field) |
| NewsTables.ExtractAnalysisRoute | start-with-agent/app.py:119-133 | 500 exactly when the body is no JSON object; 400 "No analysis text provided" exactly for a falsy field; otherwise the analysis data ({} for a non-string field) |

## Left out

- The LLM calls, timeouts and `run_in_executor`: a reply is an input. Prompt wording is not modelled beyond the fragments `Planner` renders.
- `json.loads` and Pydantic `model_validate_json` are function parameters. No JSON grammar is modelled.
- The FAISS index, numpy and the embedding model are left out. The index is reduced to whether it exists and how many vectors it holds, and a search answer is an input. `embeddings_model` is never set, so the embedding step raises once the index has vectors; that exception is part of the answer input.
- NewsTables.ValidDate: takes `strptime('%Y-%m-%d')` as a strict dddd-dd-dd calendar test. `strptime` also accepts one-digit months and days, such as "2021-1-5", which the model drops.
- NewsTables.DateCellAt: `\d` is taken as the ASCII digits. Python's `re` also matches other Unicode decimal digits.
- CotLoop.Dispatch: the float conversion of the final answer (cot-demo/main.py:213-215) is not modelled. Any exception it raises is folded into the outcome of the verify call.
- IngestServer.Submit: takes the request body to be a dict whose url is a string or absent. A missing body (a 500) and non-string urls are not modelled.
- Threads, `time.sleep`, `task_done` and `time.time()`: the worker runs sequentially, and task ids are inputs.
- HTTP, BeautifulSoup, MarkItDown and Flask's `jsonify`: a page is an input, and a route's 500 reply does not carry Flask's message.
- The perception layers of both demos, embeddings-demo/backend/agent.py and app.py, and agent-layers-demo/cot_tools.py (float arithmetic and `eval`) are not part of this model.
- `log_response`, `get_api_key` and the `app.date_info` global in start-with-agent/app.py are side effects and are not modelled.
- All JavaScript (the browser extensions and the webpack configuration) is UI and network code and is not modelled.
- PyRepr.Printable: follows `str.isprintable` exactly up to U+00FF and for the Unicode space and line separators. Other non-ASCII code points count as printable, although Python escapes format, private-use and unassigned ones as `\uXXXX`, because the Unicode character database is not modelled.
- Json.Get: takes the parsed value's keys to be distinct and returns the first entry for a key. Python's `json.loads` keeps the last of repeated keys; the parse is an input, and the model assumes it gives distinct keys.
- The imports of undefined input classes in agent-layers-demo/action.py and embeddings-demo/backend/cognitive_layers/decision.py are not modelled. The records they would carry are defined directly.

## Findings

| source | as written | input that shows it | evidently intended | confidence | as-written member | corrected member |
|---|---|---|---|---|---|---|
| embeddings-demo/backend/cognitive_layers/memory.py:59-64 | the filter `idx < len(documents)` lets FAISS's padding value -1 through, and Python reads `documents[-1]` | one stored chunk with its vector indexed, k = 3: FAISS answers [0, -1, -1] and the search returns that chunk three times | look up only positions 0 <= idx < len(documents) | not executed; latent while the vector add stays commented out | VectorMemory.PaddingRepeatsLastChunk | VectorMemory.SearchCorrected |

=== FILE: agent_action.dfy ===
/** `execute_action` of agent-layers-demo/action.py: the dispatch on the action
    name and the pair `(user_input, assistant_response)` it returns. The tool
    call is an input: the texts of the reply's content, or the message of the
    exception the call (or building its input) raised. `json.loads` is an
    input too. An exception raised here propagates to the caller; the model
    returns it as a `Failure`. */
module AgentAction {
  import opened Wrappers
  import opened Json
  import opened AgentDecision

  const ShowReasoning: string := "show_reasoning"
  const Calculate: string := "calculate"
  const Verify: string := "verify"

  const VerifiedMessage: string := "Verified. Next step?"
  const NotVerifiedMessage: string := "Not verified. Please re-do the calculation."
  const VerifyThisStep: string := ". Let's verify this step."

  /** The two values of the returned tuple. */
  datatype Reply = Reply(userInput: Option<string>, assistantResponse: Option<Json>)

  const Silent: Reply := Reply(None, None)

  /** The messages of the exceptions raised inside `execute_action`. */
  const BadJson: string := "JSONDecodeError"
  const NoResultKey: string := "KeyError: 'result'"
  const NotSubscriptable: string := "TypeError: not a dict"
  const NoGet: string := "AttributeError: no attribute 'get'"
  const BadUnpack: string := "ValueError: not exactly two values to unpack"
  const NoContent: string := "IndexError: list index out of range"
  const NotAString: string := "TypeError: the JSON object must be str"

  /** `expression, expected = params`: a list of exactly two items, or a
      string of exactly two characters; anything else raises. */
  function Unpack(params: Option<Params>): (r: Option<(string, string)>)
    ensures r.Some? <==>
      && params.Some?
      && ((params.value.ParamList? && |params.value.items| == 2) ||
          (params.value.ParamText? && |params.value.text| == 2))
    ensures r.Some? && params.value.ParamList? ==> r.value == (params.value.items[0], params.value.items[1])
  {
    match params
    case None => None
    case Some(ParamList(items)) => if |items| == 2 then Some((items[0], items[1])) else None
    case Some(ParamText(t)) => if |t| == 2 then Some(([t[0]], [t[1]])) else None
  }

  /** `json.loads(text)["result"]`. */
  function ResultField(text: string, parse: string -> Option<Json>): (r: Result<Json, string>)
    ensures r.Success? <==> parse(text).Some? && parse(text).value.JObj? && HasKey(parse(text).value.fields, "result")
    ensures r.Success? ==> ("result", r.value) in parse(text).value.fields
  {
    match parse(text)
    case None => Failure(BadJson)
    case Some(j) =>
      if !j.JObj? then Failure(NotSubscriptable)
      else
        match Get(j.fields, "result")
        case None => Failure(NoResultKey)
        case Some(v) => Success(v)
  }

  /** `value.get("is_correct", False)` on the parsed verify reply, as a truth value. */
  function IsCorrect(text: string, parse: string -> Option<Json>): (r: Result<bool, string>)
    ensures r.Success? <==> parse(text).Some? && parse(text).value.JObj?
    ensures r.Success? && !HasKey(parse(text).value.fields, "is_correct") ==> !r.value
    ensures r.Success? && r.value ==> exists v :: ("is_correct", v) in parse(text).value.fields && Truthy(v)
    ensures r.Success? ==>
      var entry := Get(parse(text).value.fields, "is_correct");
      r.value <==> entry.Some? && Truthy(entry.value)
  {
    match parse(text)
    case None => Failure(BadJson)
    case Some(j) =>
      if !j.JObj? then Failure(NoGet)
      else
        match Get(j.fields, "is_correct")
        case None => Success(false)
        case Some(v) => Success(Truthy(v))
  }

  /** The figures the final answer prints: the `*_2040` key when present
      (whatever its value), otherwise the plain key, otherwise None. */
  function ExpenseFigures(answer: seq<(string, Json)>): (r: (Option<Json>, Option<Json>))
    ensures r.0.None? <==> !HasKey(answer, "monthly_expense_2040") && !HasKey(answer, "monthly_expense")
    ensures r.0.Some? ==>
      if HasKey(answer, "monthly_expense_2040") then ("monthly_expense_2040", r.0.value) in answer
      else ("monthly_expense", r.0.value) in answer
    ensures r.1.None? <==> !HasKey(answer, "yearly_expense_2040") && !HasKey(answer, "yearly_expense")
    ensures r.1.Some? ==>
      if HasKey(answer, "yearly_expense_2040") then ("yearly_expense_2040", r.1.value) in answer
      else ("yearly_expense", r.1.value) in answer
  {
    var monthly := if HasKey(answer, "monthly_expense_2040") then Get(answer, "monthly_expense_2040") else Get(answer, "monthly_expense");
    var yearly := if HasKey(answer, "yearly_expense_2040") then Get(answer, "yearly_expense_2040") else Get(answer, "yearly_expense");
    (monthly, yearly)
  }

  /** `execute_action`. */
  function ExecuteAction(action: string, params: Option<Params>, call: Result<seq<string>, string>,
                         parse: string -> Option<Json>): (r: Result<Reply, string>)
    ensures action !in {ShowReasoning, Calculate, Verify, FinalAnswerAction} ==> r == Success(Silent)
    ensures action == ShowReasoning ==> r == (if call.Failure? then Failure(call.error) else Success(Silent))
    ensures action == Calculate && call.Failure? ==> r == Failure(call.error)
    ensures action == Calculate && call.Success? && call.value == [] ==> r == Success(Silent)
    ensures action == Calculate && call.Success? && call.value != [] && ResultField(call.value[0], parse).Failure? ==>
      r.Failure?
    ensures action == Calculate && call.Success? && call.value != [] && ResultField(call.value[0], parse).Success? ==>
      var v := ResultField(call.value[0], parse).value;
      r == Success(Reply(Some("Result is " + Str(v) + VerifyThisStep), Some(v)))
    ensures action == Verify ==>
      (r.Success? <==> Unpack(params).Some? && call.Success? && call.value != [] && IsCorrect(call.value[0], parse).Success?)
    ensures action == FinalAnswerAction ==>
      (r.Success? <==> params.Some? && params.value.ParamText? && parse(params.value.text).Some?
                       && parse(params.value.text).value.JObj?)
    ensures action == Verify && r.Success? ==>
      && Unpack(params).Some?
      && call.Success? && call.value != []
      && IsCorrect(call.value[0], parse).Success?
      && r.value == Reply(Some(if IsCorrect(call.value[0], parse).value then VerifiedMessage else NotVerifiedMessage), None)
    ensures action == FinalAnswerAction && r.Success? ==>
      && params.Some? && params.value.ParamText?
      && r.value == Silent
    ensures r.Success? && r.value.assistantResponse.Some? ==> action == Calculate
  {
    if action == ShowReasoning then
      if call.Failure? then Failure(call.error) else Success(Silent)
    else if action == Calculate then
      if call.Failure? then Failure(call.error)
      else if call.value == [] then Success(Silent)
      else
        var v :- ResultField(call.value[0], parse);
        Success(Reply(Some("Result is " + Str(v) + VerifyThisStep), Some(v)))
    else if action == Verify then
      if Unpack(params).None? then Failure(BadUnpack)
      else if call.Failure? then Failure(call.error)
      else if call.value == [] then Failure(NoContent)
      else
        var ok :- IsCorrect(call.value[0], parse);
        Success(Reply(Some(if ok then VerifiedMessage else NotVerifiedMessage), None))
    else if action == FinalAnswerAction then
      if params.None? || params.value.ParamList? then Failure(NotAString)
      else
        match parse(params.value.text)
        case None => Failure(BadJson)
        case Some(answer) =>
          if !answer.JObj? then Failure(NoGet)
          else
            // the figures only go to the console
            var _ := ExpenseFigures(answer.fields);
            Success(Silent)
    else Success(Silent)
  }

  /** Only calculate and verify hand a user input back to the loop. */
  lemma UserInputOnlyFromCalculateOrVerify(action: string, params: Option<Params>,
                                           call: Result<seq<string>, string>, parse: string -> Option<Json>)
    requires ExecuteAction(action, params, call, parse).Success?
    requires Filled(ExecuteAction(action, params, call, parse).value.userInput)
    ensures action == Calculate || action == Verify
  {
  }
}

=== FILE: agent_decision.dfy ===
/** `decide_next_step` of agent-layers-demo/decision.py: the guard on the
    stored facts, the query it sends, and the mapping of the validated reply to
    an action. The model call and the Pydantic validation are inputs: the reply
    text (`None` for no reply) and a validator that yields the record or `None`
    when validation fails. */
module AgentDecision {
  import opened Wrappers
  import opened PyStr
  import opened Json
  import Markdown

  /** `Optional[Union[List[str], str]]` without the Optional. */
  datatype Params = ParamList(items: seq<string>) | ParamText(text: string)

  /** The validated `LLMResponse`. */
  datatype LlmResponse = LlmResponse(functionCall: Option<string>, params: Option<Params>, finalAnswer: Option<string>)

  /** The `{"action": ..., "params": ...}` dict. */
  datatype Decision = Decision(action: Option<string>, params: Option<Params>)

  const NoDecision: Decision := Decision(None, None)
  const FinalAnswerAction: string := "final_answer"
  const NoFactsError: string := "No extracted facts found in memory."

  /** The ValueError raised for missing facts, or the query sent and the
      decision reached. */
  datatype Outcome = Raised(error: string) | Decided(query: string, decision: Decision)

  predicate Filled(s: Option<string>) {
    s.Some? && s.value != ""
  }

  /** The query: the system prompt, a blank line, then `str()` of the facts. */
  function Query(systemPrompt: string, facts: Json): (q: string)
    ensures systemPrompt + "\n\n" <= q
    ensures q[|systemPrompt| + 2..] == Str(facts)
  {
    systemPrompt + "\n\n" + Str(facts)
  }

  /** The post-validation mapping: a truthy `function_call` wins, then a truthy
      `final_answer`, otherwise no action. */
  function MapResponse(resp: LlmResponse): (d: Decision)
    ensures Filled(resp.functionCall) ==> d == Decision(resp.functionCall, resp.params)
    ensures !Filled(resp.functionCall) && Filled(resp.finalAnswer) ==>
      d == Decision(Some(FinalAnswerAction), Some(ParamText(resp.finalAnswer.value)))
    ensures d.action.None? <==> !Filled(resp.functionCall) && !Filled(resp.finalAnswer)
    ensures d.action.None? ==> d == NoDecision
  {
    if Filled(resp.functionCall) then Decision(resp.functionCall, resp.params)
    else if Filled(resp.finalAnswer) then Decision(Some(FinalAnswerAction), Some(ParamText(resp.finalAnswer.value)))
    else NoDecision
  }

  /** `decide_next_step`. */
  function DecideNextStep(facts: Json, systemPrompt: string, reply: Option<string>,
                          validate: string -> Option<LlmResponse>): (o: Outcome)
    ensures !Truthy(facts) <==> o.Raised?
    ensures o.Raised? ==> o.error == NoFactsError
    ensures o.Decided? ==> o.query == Query(systemPrompt, facts)
    ensures o.Decided? && !Filled(reply) ==> o.decision == NoDecision
    ensures o.Decided? && Filled(reply) ==>
      match validate(Markdown.RemoveMarkdown(Strip(reply.value)))
      case None => o.decision == NoDecision
      case Some(resp) => o.decision == MapResponse(resp)
  {
    if !Truthy(facts) then Raised(NoFactsError)
    else
      var query := Query(systemPrompt, facts);
      if !Filled(reply) then Decided(query, NoDecision)
      else
        match validate(Markdown.RemoveMarkdown(Strip(reply.value)))
        case None => Decided(query, NoDecision)
        case Some(resp) => Decided(query, MapResponse(resp))
  }

  /** Where a decided action comes from: only a filled reply that validates
      yields one, and it is then either the record's filled `function_call`
      with the record's `params`, or "final_answer" with the record's filled
      `final_answer` text when there is no function call. */
  lemma DecidedActionOrigin(facts: Json, systemPrompt: string, reply: Option<string>,
                            validate: string -> Option<LlmResponse>)
    requires var o := DecideNextStep(facts, systemPrompt, reply, validate);
      o.Decided? && o.decision.action.Some?
    ensures var o := DecideNextStep(facts, systemPrompt, reply, validate);
      && Filled(reply)
      && var resp := validate(Markdown.RemoveMarkdown(Strip(reply.value)));
      && resp.Some?
      && o.decision.action.value != ""
      && (|| (Filled(resp.value.functionCall)
              && o.decision == Decision(resp.value.functionCall, resp.value.params))
          || (!Filled(resp.value.functionCall) && Filled(resp.value.finalAnswer)
              && o.decision == Decision(Some(FinalAnswerAction), Some(ParamText(resp.value.finalAnswer.value)))))
  {
    var o := DecideNextStep(facts, systemPrompt, reply, validate);
    assert Filled(reply);
    var resp := validate(Markdown.RemoveMarkdown(Strip(reply.value)));
    assert resp.Some? && o.decision == MapResponse(resp.value);
  }
}

=== FILE: agent_memory.dfy ===
/** The `Memory` class of agent-layers-demo/memory.py as an immutable record:
    every method is a function from the old record to the new one. */
module AgentMemory {
  import opened Wrappers
  import opened Json
  import ToolCatalog

  /** One `(user_input, assistant_response)` pair of the conversation. */
  datatype Turn = Turn(userInput: Option<string>, assistantResponse: Json)

  datatype Memory = Memory(
    history: seq<Turn>,
    toolsDescription: string,
    extractedFacts: Json,
    perceptionResponses: seq<Json>,
    decisionResponses: seq<Json>)

  /** `Memory()`: empty lists, an empty tools description and None facts. */
  function Fresh(): (m: Memory)
    ensures m.history == [] && m.perceptionResponses == [] && m.decisionResponses == []
    ensures m.toolsDescription == ""
    ensures !Truthy(m.extractedFacts)
  {
    Memory([], "", JNull, [], [])
  }

  /** Replaces the tools description; nothing else changes. */
  function UpdateToolsDescription(m: Memory, tools: seq<ToolCatalog.Tool>): (r: Memory)
    ensures r.toolsDescription == ToolCatalog.ToolsDescription(tools)
    ensures r.(toolsDescription := m.toolsDescription) == m
  {
    m.(toolsDescription := ToolCatalog.ToolsDescription(tools))
  }

  /** Appends one pair; the earlier pairs and every other field stay. */
  function AddToHistory(m: Memory, userInput: Option<string>, assistantResponse: Json): (r: Memory)
    ensures |r.history| == |m.history| + 1
    ensures r.history[..|m.history|] == m.history
    ensures r.history[|m.history|] == Turn(userInput, assistantResponse)
    ensures r.(history := m.history) == m
  {
    m.(history := m.history + [Turn(userInput, assistantResponse)])
  }

  /** Overwrites the facts; nothing else changes. */
  function StoreExtractedFacts(m: Memory, facts: Json): (r: Memory)
    ensures r.extractedFacts == facts
    ensures r.(extractedFacts := m.extractedFacts) == m
  {
    m.(extractedFacts := facts)
  }

  function UpdatePerceptionResponse(m: Memory, response: Json): (r: Memory)
    ensures r.perceptionResponses == m.perceptionResponses + [response]
    ensures r.(perceptionResponses := m.perceptionResponses) == m
  {
    m.(perceptionResponses := m.perceptionResponses + [response])
  }

  function GetPerceptionResponse(m: Memory): seq<Json> {
    m.perceptionResponses
  }

  /** The stored form of a decision response: `{"Assistant": response}`. */
  function Wrapped(response: Json): (j: Json)
    ensures j.JObj? && Get(j.fields, "Assistant") == Some(response)
  {
    JObj([("Assistant", response)])
  }

  function UpdateDecisionResponse(m: Memory, response: Json): (r: Memory)
    ensures r.decisionResponses == m.decisionResponses + [Wrapped(response)]
    ensures r.(decisionResponses := m.decisionResponses) == m
  {
    m.(decisionResponses := m.decisionResponses + [Wrapped(response)])
  }

  function GetDecisionResponse(m: Memory): seq<Json> {
    m.decisionResponses
  }

  // ---------------------------------------------------------------------------
  // insertion order over many calls

  function RecordPerceptions(m: Memory, responses: seq<Json>): Memory
    decreases |responses|
  {
    if |responses| == 0 then m
    else RecordPerceptions(UpdatePerceptionResponse(m, responses[0]), responses[1..])
  }

  function RecordDecisions(m: Memory, responses: seq<Json>): Memory
    decreases |responses|
  {
    if |responses| == 0 then m
    else RecordDecisions(UpdateDecisionResponse(m, responses[0]), responses[1..])
  }

  /** The perception getter returns every response in the order stored. */
  lemma {:induction false} PerceptionsInOrder(m: Memory, responses: seq<Json>)
    ensures GetPerceptionResponse(RecordPerceptions(m, responses)) == m.perceptionResponses + responses
    ensures RecordPerceptions(m, responses).(perceptionResponses := m.perceptionResponses) == m
    decreases |responses|
  {
    if |responses| > 0 {
      var m1 := UpdatePerceptionResponse(m, responses[0]);
      PerceptionsInOrder(m1, responses[1..]);
      assert m.perceptionResponses + responses == m1.perceptionResponses + responses[1..];
    }
  }

  /** The decision getter returns every response, each wrapped under
      "Assistant", in the order stored. */
  lemma {:induction false} DecisionsInOrder(m: Memory, responses: seq<Json>)
    ensures var got := GetDecisionResponse(RecordDecisions(m, responses));
      && |got| == |m.decisionResponses| + |responses|
      && got[..|m.decisionResponses|] == m.decisionResponses
      && forall k | 0 <= k < |responses| ::
           got[|m.decisionResponses| + k] == Wrapped(responses[k])
    decreases |responses|
  {
    if |responses| > 0 {
      var m1 := UpdateDecisionResponse(m, responses[0]);
      DecisionsInOrder(m1, responses[1..]);
      var got := GetDecisionResponse(RecordDecisions(m, responses));
      assert got == GetDecisionResponse(RecordDecisions(m1, responses[1..]));
      assert got[..|m1.decisionResponses|] == m1.decisionResponses;
      assert got[..|m.decisionResponses|] == m1.decisionResponses[..|m.decisionResponses|];
      forall k | 0 <= k < |responses|
        ensures got[|m.decisionResponses| + k] == Wrapped(responses[k])
      {
        if k == 0 {
          assert got[|m.decisionResponses|] == m1.decisionResponses[|m.decisionResponses|];
        } else {
          assert responses[k] == responses[1..][k - 1];
        }
      }
    }
  }
}

=== FILE: cot_loop.dfy ===
/** The `while True` loop of cot-demo/main.py (lines 156-224) as a state
    machine over the prompt, the recorded `(expression, value)` pairs and the
    loop's status. Each step takes the model's reply text and the outcome of
    the tool call it makes as inputs; `json.loads` is an input too. There is no
    step bound in the source. */
module CotLoop {
  import opened Wrappers
  import opened PyStr
  import opened Json
  import Markdown

  const UserTag: string := "\nUser: "
  const AssistantTag: string := "\nAssistant: "
  const NextStep: string := "Next step?"
  const Verified: string := "Verified. Next step?"

  /** `Completed` is a `break`; `verified` says whether the final answer was
      sent to the verify tool. `Crashed` is an exception caught by `main`. */
  datatype Status = Running | Completed(verified: bool) | Crashed(error: string)

  /** A recorded calculation: the `param` entry (None when absent) and the
      text the tool returned. */
  datatype Calculation = Calculation(expression: Json, value: string)

  datatype CotState = CotState(prompt: string, history: seq<Calculation>, status: Status)

  /** `reply` is `response.text` (None when the call failed or timed out);
      `call` is what the tool call of this step gives: its content texts, or
      the message of the exception it raised. */
  datatype StepInput = StepInput(reply: Option<string>, call: Result<seq<string>, string>)

  const NotADict: string := "AttributeError: no attribute 'get'"
  const BadIndex: string := "cannot take params[0] and params[1]"

  /** `params[0], params[1]` succeeds on a list or a string of length two or
      more; on anything else it raises. */
  predicate TwoIndexable(p: Json) {
    (p.JArr? && |p.items| >= 2) || (p.JStr? && |p.s| >= 2)
  }

  /** The truthy `function_call` entry, if any. */
  function Called(fields: seq<(string, Json)>): (r: Option<Json>)
    ensures r.Some? ==> Truthy(r.value) && ("function_call", r.value) in fields
    ensures r.None? <==> !HasKey(fields, "function_call") || !Truthy(Get(fields, "function_call").value)
  {
    var fc := Get(fields, "function_call");
    if fc.Some? && Truthy(fc.value) then fc else None
  }

  predicate AnswersFinally(fields: seq<(string, Json)>) {
    var fa := Get(fields, "final_answer");
    fa.Some? && Truthy(fa.value)
  }

  /** How one iteration ends for a parsed dict `result`. */
  function Dispatch(st: CotState, fields: seq<(string, Json)>, call: Result<seq<string>, string>): (r: CotState)
    requires st.status == Running
    ensures Called(fields) == Some(JStr("show_reasoning")) && call.Success? ==>
      r == st.(prompt := st.prompt + UserTag + NextStep)
    ensures Called(fields) == Some(JStr("verify")) && call.Success? && TwoIndexable(Get(fields, "params").GetOr(JArr([]))) ==>
      r == st.(prompt := st.prompt + UserTag + Verified)
    ensures Called(fields) == Some(JStr("calculate")) && call.Success? ==>
      && (call.value == [] ==> r == st)
      && (call.value != [] ==>
            r == CotState(st.prompt + UserTag + "Result is " + call.value[0] + ". Let's verify this step.",
                          st.history + [Calculation(Get(fields, "param").GetOr(JNull), call.value[0])], Running))
    ensures (Called(fields) == Some(JStr("show_reasoning")) || Called(fields) == Some(JStr("calculate"))) && call.Failure? ==>
      r == st.(status := Crashed(call.error))
    ensures Called(fields) == Some(JStr("verify")) && !TwoIndexable(Get(fields, "params").GetOr(JArr([]))) ==>
      r == st.(status := Crashed(BadIndex))
    ensures Called(fields) == Some(JStr("verify")) && TwoIndexable(Get(fields, "params").GetOr(JArr([]))) && call.Failure? ==>
      r == st.(status := Crashed(call.error))
    ensures Called(fields).Some? && Called(fields).value !in {JStr("show_reasoning"), JStr("calculate"), JStr("verify")} ==>
      r == st.(status := Completed(false))
    ensures Called(fields).None? && AnswersFinally(fields) ==>
      if st.history == [] then r == st.(status := Completed(false))
      else r.status == (if call.Failure? then Crashed(call.error) else Completed(true))
    ensures Called(fields).None? && !AnswersFinally(fields) ==> r == st
    ensures r.status.Completed? && r.status.verified ==> st.history != []
    ensures r.status == Running ==>
      && st.prompt <= r.prompt
      && |st.history| <= |r.history| && r.history[..|st.history|] == st.history
    ensures r.status != Running ==> r.prompt == st.prompt && r.history == st.history
  {
    match Called(fields)
    case Some(name) =>
      if name == JStr("show_reasoning") then
        if call.Failure? then st.(status := Crashed(call.error))
        else st.(prompt := st.prompt + UserTag + NextStep)
      else if name == JStr("calculate") then
        if call.Failure? then st.(status := Crashed(call.error))
        else if call.value == [] then st
        else
          var expression := Get(fields, "param").GetOr(JNull);
          var value := call.value[0];
          CotState(st.prompt + UserTag + "Result is " + value + ". Let's verify this step.",
                   st.history + [Calculation(expression, value)], Running)
      else if name == JStr("verify") then
        if !TwoIndexable(Get(fields, "params").GetOr(JArr([]))) then st.(status := Crashed(BadIndex))
        else if call.Failure? then st.(status := Crashed(call.error))
        else st.(prompt := st.prompt + UserTag + Verified)
      else st.(status := Completed(false))
    case None =>
      if AnswersFinally(fields) then
        if st.history == [] then st.(status := Completed(false))
        else if call.Failure? then st.(status := Crashed(call.error))
        else st.(status := Completed(true))
      else st
  }

  /** The parsed reply of a step, or `None` when the loop breaks before
      dispatching (no reply, empty reply, or unparseable JSON). */
  function Parsed(input: StepInput, parse: string -> Option<Json>): (r: Option<Json>)
    ensures input.reply.None? || input.reply.value == "" ==> r.None?
    ensures input.reply.Some? && input.reply.value != "" ==>
      r == parse(Markdown.RemoveMarkdown(Strip(input.reply.value)))
  {
    if input.reply.None? || input.reply.value == "" then None
    else parse(Markdown.RemoveMarkdown(Strip(input.reply.value)))
  }

  /** One iteration. */
  function Step(st: CotState, input: StepInput, parse: string -> Option<Json>): (r: CotState)
    ensures st.status != Running ==> r == st
    ensures st.status == Running && Parsed(input, parse).None? ==> r == st.(status := Completed(false))
    ensures st.status == Running && Parsed(input, parse).Some? && !Parsed(input, parse).value.JObj? ==>
      r == st.(status := Crashed(NotADict))
    ensures st.prompt <= r.prompt
    ensures |st.history| <= |r.history| && r.history[..|st.history|] == st.history
    ensures st.status == Running && r.status == Running ==>
      && Parsed(input, parse).Some?
      && var tail := AssistantTag + Str(Parsed(input, parse).value);
         |tail| <= |r.prompt| && r.prompt[|r.prompt| - |tail|..] == tail
  {
    if st.status != Running then st
    else
      match Parsed(input, parse)
      case None => st.(status := Completed(false))
      case Some(result) =>
        if !result.JObj? then st.(status := Crashed(NotADict))
        else
          var s1 := Dispatch(st, result.fields, input.call);
          if s1.status != Running then s1
          else
            var tail := AssistantTag + Str(result);
            var p := s1.prompt + tail;
            assert p[|p| - |tail|..] == tail;
            s1.(prompt := p)
  }

  /** A dispatch that stops the loop (a break or an exception) is the
      outcome of the whole iteration. */
  lemma DispatchStopEndsStep(st: CotState, input: StepInput, parse: string -> Option<Json>)
    requires st.status == Running && Parsed(input, parse).Some? && Parsed(input, parse).value.JObj?
    requires Dispatch(st, Parsed(input, parse).value.fields, input.call).status != Running
    ensures Step(st, input, parse) == Dispatch(st, Parsed(input, parse).value.fields, input.call)
  {
  }

  /** The `while True` loop fed one input per iteration: a loop that has
      stopped stays stopped, so a run still going was going all along. */
  function Run(st: CotState, inputs: seq<StepInput>, parse: string -> Option<Json>): (r: CotState)
    ensures st.status != Running ==> r == st
    ensures r.status == Running ==> st.status == Running
    decreases |inputs|
  {
    if |inputs| == 0 then st else Run(Step(st, inputs[0], parse), inputs[1..], parse)
  }

  /** Over any run the prompt only grows, recorded calculations stay, and a
      stopped loop stays stopped. */
  lemma {:induction false} RunOnlyExtends(st: CotState, inputs: seq<StepInput>, parse: string -> Option<Json>)
    ensures var r := Run(st, inputs, parse);
      && st.prompt <= r.prompt
      && |st.history| <= |r.history|
      && r.history[..|st.history|] == st.history
      && (st.status != Running ==> r == st)
    decreases |inputs|
  {
    if |inputs| > 0 {
      var s1 := Step(st, inputs[0], parse);
      StepExtends(st, inputs[0], parse);
      RunOnlyExtends(s1, inputs[1..], parse);
      var r := Run(s1, inputs[1..], parse);
      assert Run(st, inputs, parse) == r;
      ExtendsTransitive(st, s1, r);
    }
  }

  /** b only adds to a: the prompt is a prefix and the calculations stay. */
  predicate Extends(a: CotState, b: CotState) {
    && a.prompt <= b.prompt
    && |a.history| <= |b.history|
    && b.history[..|a.history|] == a.history
  }

  lemma StepExtends(st: CotState, input: StepInput, parse: string -> Option<Json>)
    ensures Extends(st, Step(st, input, parse))
    ensures st.status != Running ==> Step(st, input, parse) == st
  {
  }

  lemma ExtendsTransitive(a: CotState, b: CotState, c: CotState)
    requires Extends(a, b) && Extends(b, c)
    ensures Extends(a, c)
  {
    assert c.history[..|a.history|] == c.history[..|b.history|][..|a.history|];
  }
}

=== FILE: ingest_server.dfy ===
/** The ingest service of embeddings-demo/backend/mcp_server.py, run
    sequentially: `process_url` enqueues a task, one worker takes tasks from
    the FIFO task queue and posts at most one outcome per task to a FIFO result
    queue, and `get_task_status` drains that queue looking for one task id. The
    page fetch and the index construction are foreign and come in as inputs. */
module IngestServer {
  import opened Wrappers
  import opened VectorMemory

  const ProcessUrl: string := "process_url"

  datatype Task = Task(kind: string, url: string, taskId: string)

  /** The dict the worker posts; both shapes carry `task_id`. */
  datatype TaskResult =
    | Succeeded(taskId: string, chunksProcessed: nat)
    | Errored(taskId: string, error: string)

  datatype Server = Server(tasks: seq<Task>, results: seq<TaskResult>, memory: Memory)

  const InitialServer := Server([], [], EmptyMemory)

  /** What the foreign calls of one task turn out to be: the page extraction
      (markdown or the extractor's error message) and the exception, if any,
      raised when the index is first created. */
  datatype WorkInput = WorkInput(extraction: Result<string, string>, indexFailure: Option<string>)

  /** One pass of `background_worker` over one task. */
  function RunTask(m: Memory, task: Task, input: WorkInput): (r: (Memory, seq<TaskResult>))
    ensures var (m', posted) := r;
      && (task.kind != ProcessUrl <==> posted == [])
      && |posted| <= 1
      && (forall i | 0 <= i < |posted| :: posted[i].taskId == task.taskId)
      && (posted != [] && posted[0].Errored? ==> m' == m)
      && (task.kind == ProcessUrl && input.extraction.Failure? ==>
            posted == [Errored(task.taskId, input.extraction.error)])
      && (posted != [] && posted[0].Succeeded? ==>
            && input.extraction.Success?
            && ProcessDocument(m, input.extraction.value, task.url, input.indexFailure)
               == Success((m', posted[0].chunksProcessed)))
    ensures task.kind == ProcessUrl && input.extraction.Success? ==>
      var stored := ProcessDocument(m, input.extraction.value, task.url, input.indexFailure);
      && (stored.Success? ==> r == (stored.value.0, [Succeeded(task.taskId, stored.value.1)]))
      && (stored.Failure? ==> r == (m, [Errored(task.taskId, stored.error)]))
  {
    if task.kind != ProcessUrl then (m, [])
    else if input.extraction.Failure? then (m, [Errored(task.taskId, input.extraction.error)])
    else
      match ProcessDocument(m, input.extraction.value, task.url, input.indexFailure)
      case Failure(e) => (m, [Errored(task.taskId, e)])
      case Success((m', n)) => (m', [Succeeded(task.taskId, n)])
  }

  /** The worker takes the oldest task; with no task it stays blocked. */
  function WorkerStep(s: Server, input: WorkInput): (s': Server)
    ensures s.tasks == [] ==> s' == s
    ensures s.tasks != [] ==>
      && s'.tasks == s.tasks[1..]
      && s'.results == s.results + RunTask(s.memory, s.tasks[0], input).1
      && s'.memory == RunTask(s.memory, s.tasks[0], input).0
  {
    if s.tasks == [] then s
    else
      var (m', posted) := RunTask(s.memory, s.tasks[0], input);
      Server(s.tasks[1..], s.results + posted, m')
  }

  /** The worker's `while True` loop, one input per task taken: it takes the
      tasks from the front, blocks once the queue is empty, and only ever
      appends to the result queue. */
  function RunWorker(s: Server, inputs: seq<WorkInput>): (r: Server)
    ensures |inputs| <= |s.tasks| ==> r.tasks == s.tasks[|inputs|..]
    ensures |inputs| >= |s.tasks| ==> r.tasks == []
    ensures |s.results| <= |r.results| && r.results[..|s.results|] == s.results
    decreases |inputs|
  {
    if |inputs| == 0 then s else RunWorker(WorkerStep(s, inputs[0]), inputs[1..])
  }

  function ResultIds(rs: seq<TaskResult>): (ids: seq<string>)
    ensures |ids| == |rs| && forall i | 0 <= i < |rs| :: ids[i] == rs[i].taskId
  {
    if |rs| == 0 then [] else [rs[0].taskId] + ResultIds(rs[1..])
  }

  /** The ids of the tasks that post a result, in queue order. */
  function PostingIds(tasks: seq<Task>): seq<string>
  {
    if |tasks| == 0 then []
    else (if tasks[0].kind == ProcessUrl then [tasks[0].taskId] else []) + PostingIds(tasks[1..])
  }

  /** One worker draining one FIFO queue processes tasks one at a time in
      enqueue order: after it has taken n tasks, the results posted are one per
      `process_url` task among them, in the same order. */
  lemma {:induction false} WorkerIsFifo(s: Server, inputs: seq<WorkInput>)
    requires |inputs| <= |s.tasks|
    ensures var s' := RunWorker(s, inputs);
            && s'.tasks == s.tasks[|inputs|..]
            && ResultIds(s'.results) == ResultIds(s.results) + PostingIds(s.tasks[..|inputs|])
    decreases |inputs|
  {
    if |inputs| > 0 {
      var s1 := WorkerStep(s, inputs[0]);
      WorkerIsFifo(s1, inputs[1..]);
      StepIds(s, inputs[0]);
      var taken := s.tasks[..|inputs|];
      assert taken == [s.tasks[0]] + s1.tasks[..|inputs| - 1];
      PostingIdsCons(s.tasks[0], s1.tasks[..|inputs| - 1]);
      assert s1.tasks[|inputs| - 1..] == s.tasks[|inputs|..];
    } else {
      assert s.tasks[..0] == [];
    }
  }

  /** One step removes the oldest task and adds the ids it posts. */
  lemma StepIds(s: Server, input: WorkInput)
    requires s.tasks != []
    ensures var s1 := WorkerStep(s, input);
      && s1.tasks == s.tasks[1..]
      && ResultIds(s1.results) == ResultIds(s.results) + (if s.tasks[0].kind == ProcessUrl then [s.tasks[0].taskId] else [])
  {
    PostedIds(s.memory, s.tasks[0], input);
    ResultIdsAppend(s.results, RunTask(s.memory, s.tasks[0], input).1);
  }

  /** The ids one task posts. */
  lemma PostedIds(m: Memory, task: Task, input: WorkInput)
    ensures ResultIds(RunTask(m, task, input).1) == if task.kind == ProcessUrl then [task.taskId] else []
  {
    var posted := RunTask(m, task, input).1;
    if task.kind == ProcessUrl {
      assert |posted| == 1 && posted[0].taskId == task.taskId;
    }
  }

  lemma PostingIdsCons(task: Task, rest: seq<Task>)
    ensures PostingIds([task] + rest) == (if task.kind == ProcessUrl then [task.taskId] else []) + PostingIds(rest)
  {
    assert ([task] + rest)[1..] == rest;
  }

  lemma ResultIdsAppend(a: seq<TaskResult>, b: seq<TaskResult>)
    ensures ResultIds(a + b) == ResultIds(a) + ResultIds(b)
  {
    var l := ResultIds(a + b);
    var r := ResultIds(a) + ResultIds(b);
    assert |l| == |r|;
    forall i | 0 <= i < |l| ensures l[i] == r[i] {
      if i < |a| {
        assert (a + b)[i] == a[i];
      } else {
        assert (a + b)[i] == b[i - |a|];
      }
    }
  }

  // ---------------------------------------------------------------------------
  // the two routes

  datatype SubmitReply = BadRequest(error: string) | Processing(taskId: string)

  /** `POST /api/process`: a missing or empty url is answered 400 and enqueues
      nothing; otherwise one task is enqueued. The task id (the clock reading in
      the source) is an input. */
  function Submit(s: Server, url: Option<string>, taskId: string): (r: (Server, SubmitReply))
    ensures url.None? || url == Some("") <==> r.1.BadRequest?
    ensures r.1.BadRequest? ==> r.0 == s && r.1.error == "URL is required"
    ensures r.1.Processing? ==>
      && r.1.taskId == taskId
      && r.0 == s.(tasks := s.tasks + [Task(ProcessUrl, url.value, taskId)])
  {
    if url.None? || url.value == "" then (s, BadRequest("URL is required"))
    else (s.(tasks := s.tasks + [Task(ProcessUrl, url.value, taskId)]), Processing(taskId))
  }

  datatype PollReply = Found(result: TaskResult) | StillProcessing(taskId: string)

  /** The `while not result_queue.empty()` loop of `GET /api/task/<id>`. */
  function Drain(results: seq<TaskResult>, taskId: string): (r: (seq<TaskResult>, PollReply))
    ensures var (rest, reply) := r;
      && |rest| <= |results|
      && rest == results[|results| - |rest|..]
      && (reply.StillProcessing? ==>
            rest == [] && reply.taskId == taskId
            && forall j | 0 <= j < |results| :: results[j].taskId != taskId)
      && (reply.Found? ==>
            var k := |results| - |rest| - 1;
            && 0 <= k
            && reply.result == results[k]
            && reply.result.taskId == taskId
            && forall j | 0 <= j < k :: results[j].taskId != taskId)
  {
    if |results| == 0 then ([], StillProcessing(taskId))
    else if results[0].taskId == taskId then (results[1..], Found(results[0]))
    else
      var r := Drain(results[1..], taskId);
      assert forall j | 1 <= j < |results| :: results[j] == results[1..][j - 1];
      r
  }

  /** `GET /api/task/<id>`: the first queued result with that id, removing it
      and every result ahead of it; otherwise the queue ends empty and the reply
      is "processing" (an unknown id is never an error). */
  function Poll(s: Server, taskId: string): (r: (Server, PollReply))
    ensures r.0.tasks == s.tasks && r.0.memory == s.memory
    ensures r.1.Found? ==> r.1.result.taskId == taskId && r.1.result in s.results
    ensures r.1.StillProcessing? <==> (forall j | 0 <= j < |s.results| :: s.results[j].taskId != taskId)
    ensures r.1.StillProcessing? ==> r.0.results == [] && r.1.taskId == taskId
  {
    var (rest, reply) := Drain(s.results, taskId);
    (s.(results := rest), reply)
  }

  predicate DistinctIds(rs: seq<TaskResult>) {
    forall i, j | 0 <= i < j < |rs| :: rs[i].taskId != rs[j].taskId
  }

  /** A result is delivered at most once: with distinct task ids, polling the
      same id again answers "processing". */
  lemma DeliveredOnce(s: Server, taskId: string)
    requires DistinctIds(s.results)
    requires Poll(s, taskId).1.Found?
    ensures var s' := Poll(s, taskId).0;
            Poll(s', taskId).1 == StillProcessing(taskId)
  {
    var (rest, reply) := Drain(s.results, taskId);
    var s' := Poll(s, taskId).0;
    assert s'.results == rest;
    var k := |s.results| - |rest| - 1;
    forall j | 0 <= j < |rest| ensures rest[j].taskId != taskId {
      assert rest[j] == s.results[k + 1 + j];
    }
    assert Poll(s', taskId).1.StillProcessing?;
  }

  /** End to end: submitting a url to an idle server, letting the worker take
      the task and polling its id delivers exactly that task's outcome. */
  lemma SubmitWorkPoll(s: Server, url: string, taskId: string, input: WorkInput)
    requires s.tasks == []
    requires url != ""
    requires forall j | 0 <= j < |s.results| :: s.results[j].taskId != taskId
    ensures var s1 := Submit(s, Some(url), taskId).0;
            var s2 := WorkerStep(s1, input);
            var (s3, reply) := Poll(s2, taskId);
            && reply.Found?
            && reply.result == RunTask(s.memory, Task(ProcessUrl, url, taskId), input).1[0]
            && s3.results == [] && s3.tasks == []
  {
    var s1 := Submit(s, Some(url), taskId).0;
    var s2 := WorkerStep(s1, input);
    var posted := RunTask(s.memory, Task(ProcessUrl, url, taskId), input).1;
    assert s1.tasks == [Task(ProcessUrl, url, taskId)];
    assert s2.results == s.results + posted;
    var (rest, reply) := Drain(s2.results, taskId);
    assert reply.Found? by {
      assert s2.results[|s.results|].taskId == taskId;
    }
    assert |rest| == 0 by {
      var k := |s2.results| - |rest| - 1;
      assert k >= |s.results|;
    }
  }
}

=== FILE: json.dfy ===
/** Parsed JSON values as Python's `json.loads` hands them to the agents, with
    Python's truthiness, `dict.get`, `str()` and `repr()` on them. The JSON text
    grammar itself is not modelled: parsing is always an input of the model. */
module Json {
  import opened Wrappers
  import PyStr
  import PyRepr

  /** A number carries the text Python's `str()` gives it and whether it is zero
      (a zero is falsy). Objects keep their keys in insertion order. */
  datatype Json =
    | JNull
    | JBool(b: bool)
    | JNum(text: string, zero: bool)
    | JStr(s: string)
    | JArr(items: seq<Json>)
    | JObj(fields: seq<(string, Json)>)

  /** Python's `bool(value)`. */
  predicate Truthy(j: Json) {
    match j
    case JNull => false
    case JBool(b) => b
    case JNum(_, zero) => !zero
    case JStr(s) => s != ""
    case JArr(items) => items != []
    case JObj(fields) => fields != []
  }

  predicate HasKey(fields: seq<(string, Json)>, key: string) {
    exists i | 0 <= i < |fields| :: fields[i].0 == key
  }

  /** `d.get(key)` on a dict decoded from JSON (whose keys are distinct). */
  function Get(fields: seq<(string, Json)>, key: string): (r: Option<Json>)
    ensures r.Some? <==> HasKey(fields, key)
    ensures r.Some? ==> (key, r.value) in fields
  {
    if |fields| == 0 then None
    else if fields[0].0 == key then Some(fields[0].1)
    else
      var r := Get(fields[1..], key);
      assert HasKey(fields[1..], key) ==> HasKey(fields, key) by {
        if HasKey(fields[1..], key) {
          var i :| 0 <= i < |fields[1..]| && fields[1..][i].0 == key;
          assert fields[i + 1].0 == key;
        }
      }
      r
  }

  /** Python's `repr()` of a decoded value; strings, keys included, are shown
      as `PyRepr.ReprString` shows them. */
  function Repr(j: Json): (r: string)
    ensures j.JStr? ==> |r| >= 2 && r[0] == r[|r| - 1] == PyRepr.QuoteFor(j.s)
    ensures j.JArr? ==> |r| >= 2 && r[0] == '[' && r[|r| - 1] == ']'
    ensures j.JObj? ==> |r| >= 2 && r[0] == '{' && r[|r| - 1] == '}'
    decreases j
  {
    match j
    case JNull => "None"
    case JBool(b) => if b then "True" else "False"
    case JNum(text, _) => text
    case JStr(s) => PyRepr.ReprRoundTrip(s); PyRepr.ReprString(s)
    case JArr(items) => "[" + ReprItems(items) + "]"
    case JObj(fields) => "{" + ReprFields(fields) + "}"
  }

  /** The text between the quotes of a string's `repr()` reads back as the string. */
  lemma ReprStrReadsBack(s: string)
    ensures var r := Repr(JStr(s));
            && |r| >= 2 && PyRepr.UnescapeText(r[1..|r| - 1]) == Some(s)
  {
    PyRepr.ReprRoundTrip(s);
  }

  function ReprItems(items: seq<Json>): string
    decreases items
  {
    if |items| == 0 then ""
    else if |items| == 1 then Repr(items[0])
    else Repr(items[0]) + ", " + ReprItems(items[1..])
  }

  function ReprFields(fields: seq<(string, Json)>): string
    decreases fields
  {
    if |fields| == 0 then ""
    else
      var (key, value) := fields[0];
      assert value < fields[0];
      var entry := PyRepr.ReprString(key) + ": " + Repr(value);
      if |fields| == 1 then entry else entry + ", " + ReprFields(fields[1..])
  }

  /** Python's `str()` of a decoded value: a string is itself, anything else is
      its `repr()`. */
  function Str(j: Json): (r: string)
    ensures j.JStr? ==> r == j.s
    ensures j.JNull? ==> r == "None"
    ensures j.JArr? || j.JObj? ==> |r| >= 2 && r[0] in "[{" && r[|r| - 1] in "]}"
  {
    if j.JStr? then j.s else Repr(j)
  }
}

=== FILE: layers_loop.dfy ===
/** The `while True` loop of agent-layers-demo/main.py as a state machine. A
    state holds the prompt, the agent memory and whether the loop still runs;
    each step takes the model's reply and the tool call's outcome as inputs.
    There is no step bound in the source, so a run is as long as its inputs. */
module LayersLoop {
  import opened Wrappers
  import opened Json
  import opened AgentMemory
  import opened AgentDecision
  import opened AgentAction

  const UserTag: string := "\nUser: "

  /** `Running`, left by `break` (`Completed`), or ended by an exception that
      `main`'s handler caught (`Crashed`). */
  datatype Status = Running | Completed | Crashed(error: string)

  datatype LoopState = LoopState(prompt: string, memory: Memory, status: Status)

  /** What the outside world answers in one iteration. */
  datatype StepInput = StepInput(reply: Option<string>, call: Result<seq<string>, string>)

  /** Before the loop of agent-layers-demo/main.py: without facts the run returns; otherwise
      the facts are stored and the loop starts from the system prompt. */
  function Start(facts: Json, m: Memory, systemPrompt: string): (r: Option<LoopState>)
    ensures r.None? <==> !Truthy(facts)
    ensures r.Some? ==> r.value == LoopState(systemPrompt, StoreExtractedFacts(m, facts), Running)
  {
    if !Truthy(facts) then None else Some(LoopState(systemPrompt, StoreExtractedFacts(m, facts), Running))
  }

  /** The prompt after a step whose user input is `u`. */
  function Extend(prompt: string, u: Option<string>): (r: string)
    ensures prompt <= r
    ensures r == prompt <==> !Filled(u)
    ensures Filled(u) ==> r[|prompt|..] == UserTag + u.value
  {
    if Filled(u) then prompt + UserTag + u.value else prompt
  }

  /** The memory after a step: the pair is recorded only for a truthy
      assistant response. */
  function Record(m: Memory, reply: Reply): (r: Memory)
    ensures r.(history := m.history) == m
    ensures reply.assistantResponse.Some? && Truthy(reply.assistantResponse.value) ==>
      r.history == m.history + [Turn(reply.userInput, reply.assistantResponse.value)]
    ensures !(reply.assistantResponse.Some? && Truthy(reply.assistantResponse.value)) ==> r == m
  {
    if reply.assistantResponse.Some? && Truthy(reply.assistantResponse.value)
    then AddToHistory(m, reply.userInput, reply.assistantResponse.value)
    else m
  }

  /** One iteration of the `while True` loop in agent-layers-demo/main.py:
      decide, stop on no action, otherwise execute and record. */
  function Step(st: LoopState, input: StepInput, validate: string -> Option<LlmResponse>,
                parse: string -> Option<Json>): (r: LoopState)
    ensures st.status != Running ==> r == st
    ensures r.memory.extractedFacts == st.memory.extractedFacts
    ensures st.prompt <= r.prompt
    ensures |st.memory.history| <= |r.memory.history| <= |st.memory.history| + 1
    ensures r.memory.history[..|st.memory.history|] == st.memory.history
    ensures st.status == Running && Truthy(st.memory.extractedFacts) ==>
      var o := DecideNextStep(st.memory.extractedFacts, st.prompt, input.reply, validate);
      && o.Decided?
      && (r.status == Completed <==> o.decision.action.None? || o.decision.action.value == "")
  {
    if st.status != Running then st
    else
      match DecideNextStep(st.memory.extractedFacts, st.prompt, input.reply, validate)
      case Raised(e) => st.(status := Crashed(e))
      case Decided(_, d) =>
        if d.action.None? || d.action.value == "" then st.(status := Completed)
        else Act(st, d.action.value, d.params, input.call, parse)
  }

  /** The second half of an iteration: the chosen action runs, and its reply
      extends the prompt and the history. */
  function Act(st: LoopState, action: string, params: Option<Params>, call: Result<seq<string>, string>,
               parse: string -> Option<Json>): (r: LoopState)
    ensures r.status != Completed
    ensures r.memory.extractedFacts == st.memory.extractedFacts
    ensures st.prompt <= r.prompt
    ensures |st.memory.history| <= |r.memory.history| <= |st.memory.history| + 1
    ensures r.memory.history[..|st.memory.history|] == st.memory.history
    ensures ExecuteAction(action, params, call, parse).Failure? <==> r.status.Crashed?
  {
    match ExecuteAction(action, params, call, parse)
    case Failure(e) => st.(status := Crashed(e))
    case Success(reply) => LoopState(Extend(st.prompt, reply.userInput), Record(st.memory, reply), Running)
  }

  /** The `while True` loop fed one input per iteration: a loop that has
      stopped stays stopped, so a run still going was going all along. */
  function Run(st: LoopState, inputs: seq<StepInput>, validate: string -> Option<LlmResponse>,
               parse: string -> Option<Json>): (r: LoopState)
    ensures st.status != Running ==> r == st
    ensures r.status == Running ==> st.status == Running
    decreases |inputs|
  {
    if |inputs| == 0 then st else Run(Step(st, inputs[0], validate, parse), inputs[1..], validate, parse)
  }

  /** Over any run the prompt only grows, recorded pairs are never changed,
      the facts stay, and a stopped loop stays stopped. */
  lemma {:induction false} RunOnlyExtends(st: LoopState, inputs: seq<StepInput>,
                                          validate: string -> Option<LlmResponse>, parse: string -> Option<Json>)
    ensures var r := Run(st, inputs, validate, parse);
      && st.prompt <= r.prompt
      && |st.memory.history| <= |r.memory.history|
      && r.memory.history[..|st.memory.history|] == st.memory.history
      && r.memory.extractedFacts == st.memory.extractedFacts
      && (st.status != Running ==> r == st)
    decreases |inputs|
  {
    if |inputs| > 0 {
      var s1 := Step(st, inputs[0], validate, parse);
      StepExtends(st, inputs[0], validate, parse);
      RunOnlyExtends(s1, inputs[1..], validate, parse);
      var r := Run(s1, inputs[1..], validate, parse);
      assert Run(st, inputs, validate, parse) == r;
      ExtendsTransitive(st, s1, r);
    }
  }

  /** b only adds to a: the prompt is a prefix, the history keeps its pairs,
      the facts stay. */
  predicate Extends(a: LoopState, b: LoopState) {
    && a.prompt <= b.prompt
    && |a.memory.history| <= |b.memory.history|
    && b.memory.history[..|a.memory.history|] == a.memory.history
    && b.memory.extractedFacts == a.memory.extractedFacts
  }

  lemma StepExtends(st: LoopState, input: StepInput, validate: string -> Option<LlmResponse>,
                    parse: string -> Option<Json>)
    ensures Extends(st, Step(st, input, validate, parse))
    ensures st.status != Running ==> Step(st, input, validate, parse) == st
  {
  }

  lemma ExtendsTransitive(a: LoopState, b: LoopState, c: LoopState)
    requires Extends(a, b) && Extends(b, c)
    ensures Extends(a, c)
  {
    assert c.memory.history[..|a.memory.history|] == c.memory.history[..|b.memory.history|][..|a.memory.history|];
  }

  /** A step whose action returns `(user_input, assistant_response)` keeps the
      loop running, appends "\nUser: " and the user input to the prompt when
      that input is truthy, and records the pair exactly when the response is
      truthy; the facts stay. */
  lemma ActionReplyApplied(st: LoopState, input: StepInput, validate: string -> Option<LlmResponse>,
                           parse: string -> Option<Json>)
    requires st.status == Running
    requires var o := DecideNextStep(st.memory.extractedFacts, st.prompt, input.reply, validate);
      && o.Decided? && o.decision.action.Some? && o.decision.action.value != ""
      && ExecuteAction(o.decision.action.value, o.decision.params, input.call, parse).Success?
    ensures var o := DecideNextStep(st.memory.extractedFacts, st.prompt, input.reply, validate);
      var reply := ExecuteAction(o.decision.action.value, o.decision.params, input.call, parse).value;
      var r := Step(st, input, validate, parse);
      && r.status == Running
      && r.prompt == (if Filled(reply.userInput) then st.prompt + UserTag + reply.userInput.value else st.prompt)
      && r.memory.history == st.memory.history +
           (if reply.assistantResponse.Some? && Truthy(reply.assistantResponse.value)
            then [Turn(reply.userInput, reply.assistantResponse.value)] else [])
      && r.memory.extractedFacts == st.memory.extractedFacts
  {
  }

  /** A `final_answer` step does not end the loop: the action returns
      `(None, None)`, so the state is left exactly as it was and the loop asks
      again with the same prompt. */
  lemma FinalAnswerKeepsRunning(st: LoopState, input: StepInput, validate: string -> Option<LlmResponse>,
                                parse: string -> Option<Json>)
    requires st.status == Running
    requires var o := DecideNextStep(st.memory.extractedFacts, st.prompt, input.reply, validate);
      && o.Decided? && o.decision.action == Some(FinalAnswerAction)
      && ExecuteAction(FinalAnswerAction, o.decision.params, input.call, parse).Success?
    ensures Step(st, input, validate, parse) == st
  {
  }

  /** A calculate step whose tool result is a falsy value (a zero) extends
      the prompt with "Result is 0..." but records nothing. */
  lemma ZeroResultNotRecorded(st: LoopState, input: StepInput, validate: string -> Option<LlmResponse>,
                              parse: string -> Option<Json>)
    requires st.status == Running
    requires var o := DecideNextStep(st.memory.extractedFacts, st.prompt, input.reply, validate);
      && o.Decided? && o.decision.action == Some(Calculate)
      && input.call.Success? && input.call.value != []
      && ResultField(input.call.value[0], parse) == Success(JNum("0", true))
    ensures var r := Step(st, input, validate, parse);
      && r.status == Running
      && r.memory == st.memory
      && r.prompt == st.prompt + UserTag + "Result is 0" + VerifyThisStep
  {
    var o := DecideNextStep(st.memory.extractedFacts, st.prompt, input.reply, validate);
    var reply := Reply(Some("Result is " + Str(JNum("0", true)) + VerifyThisStep), Some(JNum("0", true)));
    assert ExecuteAction(Calculate, o.decision.params, input.call, parse) == Success(reply);
    assert Record(st.memory, reply) == st.memory;
    assert Step(st, input, validate, parse) == Act(st, Calculate, o.decision.params, input.call, parse);
  }

  /** Only a calculate step whose tool result is truthy adds to the history,
      and it adds exactly the pair ("Result is ...", result). */
  lemma HistoryGrowsOnlyOnCalculate(st: LoopState, input: StepInput, validate: string -> Option<LlmResponse>,
                                    parse: string -> Option<Json>)
    requires |Step(st, input, validate, parse).memory.history| > |st.memory.history|
    ensures var o := DecideNextStep(st.memory.extractedFacts, st.prompt, input.reply, validate);
      && st.status == Running
      && o.Decided? && o.decision.action == Some(Calculate)
      && input.call.Success? && input.call.value != []
      && var v := ResultField(input.call.value[0], parse);
      && v.Success? && Truthy(v.value)
      && Step(st, input, validate, parse).memory.history ==
           st.memory.history + [Turn(Some("Result is " + Str(v.value) + VerifyThisStep), v.value)]
  {
    var o := DecideNextStep(st.memory.extractedFacts, st.prompt, input.reply, validate);
    var r := Step(st, input, validate, parse);
    assert st.status == Running && o.Decided?;
    var d := o.decision;
    assert d.action.Some? && d.action.value != "";
    assert r == Act(st, d.action.value, d.params, input.call, parse);
    var e := ExecuteAction(d.action.value, d.params, input.call, parse);
    assert e.Success?;
    assert e.value.assistantResponse.Some?;
    assert d.action.value == Calculate;
  }

  /** The prompt grows only on a calculate or a verify step: the other
      actions return no user input. */
  lemma PromptGrowsOnlyOnCalculateOrVerify(st: LoopState, input: StepInput, validate: string -> Option<LlmResponse>,
                                           parse: string -> Option<Json>)
    requires Step(st, input, validate, parse).prompt != st.prompt
    ensures var o := DecideNextStep(st.memory.extractedFacts, st.prompt, input.reply, validate);
      && st.status == Running
      && o.Decided? && (o.decision.action == Some(Calculate) || o.decision.action == Some(Verify))
  {
    var o := DecideNextStep(st.memory.extractedFacts, st.prompt, input.reply, validate);
    var d := o.decision;
    assert st.status == Running && o.Decided? && d.action.Some? && d.action.value != "";
    var r := Step(st, input, validate, parse);
    assert r == Act(st, d.action.value, d.params, input.call, parse);
    var e := ExecuteAction(d.action.value, d.params, input.call, parse);
    assert e.Success? && r.prompt == Extend(st.prompt, e.value.userInput);
    assert Filled(e.value.userInput);
    UserInputOnlyFromCalculateOrVerify(d.action.value, d.params, input.call, parse);
  }
}

=== FILE: markdown.dfy ===
/** `remove_markdown`, which appears three times in the repository with the same
    two substitutions: first every match of `r'```(?:json|python|.*)?\n'` is
    deleted, then every match of `r'\n```'`. Without DOTALL `.*` stops at the
    first newline, so the first pattern matches exactly "```", the rest of that
    line and its newline, whatever the tag. `re.sub` scans left to right and
    resumes after each match, which the two recursive scans below follow. */
module Markdown {
  import PyStr

  const Fence: string := "```"
  const Closer: string := "\n```"

  /** A fence starts the string and a newline follows it somewhere later. */
  predicate OpensFence(s: string) {
    |s| >= 3 && s[..3] == Fence && '\n' in s[3..]
  }

  predicate FenceAt(s: string, i: int) {
    0 <= i && i + 3 <= |s| && s[i] == '`' && s[i + 1] == '`' && s[i + 2] == '`'
  }

  predicate NoFence(s: string) {
    forall i | 0 <= i < |s| :: !FenceAt(s, i)
  }

  /** Every fence in the string has no newline anywhere after it. */
  predicate NoLiveOpener(s: string) {
    forall i | 0 <= i < |s| :: FenceAt(s, i) ==> '\n' !in s[i + 3..]
  }

  /** First pass: deletes each "```<rest of line>\n". */
  function StripOpeners(s: string): (r: string)
    ensures |r| <= |s|
    decreases |s|
  {
    if |s| == 0 then ""
    else if OpensFence(s) then StripOpeners(s[3 + PyStr.IndexOf(s[3..], '\n') + 1..])
    else [s[0]] + StripOpeners(s[1..])
  }

  /** Second pass: deletes each "\n```". */
  function RemoveClosers(s: string): (r: string)
    ensures |r| <= |s|
    decreases |s|
  {
    if |s| == 0 then ""
    else if Closer <= s then RemoveClosers(s[4..])
    else [s[0]] + RemoveClosers(s[1..])
  }

  /** `remove_markdown(response)`: never longer than its input. */
  function RemoveMarkdown(s: string): (r: string)
    ensures |r| <= |s|
  {
    RemoveClosers(StripOpeners(s))
  }

  lemma {:induction false} StripOpenersIdle(s: string)
    requires NoLiveOpener(s)
    ensures StripOpeners(s) == s
    decreases |s|
  {
    if |s| > 0 {
      assert !OpensFence(s) by {
        if |s| >= 3 && s[..3] == Fence {
          assert FenceAt(s, 0);
        }
      }
      assert NoLiveOpener(s[1..]) by {
        forall i | 0 <= i < |s[1..]| && FenceAt(s[1..], i)
          ensures '\n' !in s[1..][i + 3..]
        {
          assert FenceAt(s, i + 1);
          assert s[1..][i + 3..] == s[i + 4..];
        }
      }
      StripOpenersIdle(s[1..]);
    }
  }

  lemma {:induction false} RemoveClosersIdle(s: string)
    requires '\n' !in s || NoFence(s)
    ensures RemoveClosers(s) == s
    decreases |s|
  {
    if |s| > 0 {
      assert !(Closer <= s) by {
        if Closer <= s {
          assert s[0] == '\n';
          assert FenceAt(s, 1);
        }
      }
      assert NoFence(s) ==> NoFence(s[1..]) by {
        if NoFence(s) {
          forall i | 0 <= i < |s[1..]| ensures !FenceAt(s[1..], i) {
            assert !FenceAt(s, i + 1);
          }
        }
      }
      RemoveClosersIdle(s[1..]);
    }
  }

  /** A reply with no fence comes back unchanged. */
  lemma NoFenceUnchanged(s: string)
    requires NoFence(s)
    ensures RemoveMarkdown(s) == s
  {
    StripOpenersIdle(s);
    RemoveClosersIdle(s);
  }

  /** Both patterns need a newline, so a one-line reply comes back unchanged,
      fences and all: "abc```" survives. */
  lemma SingleLineUnchanged(s: string)
    requires '\n' !in s
    ensures RemoveMarkdown(s) == s
  {
    assert NoLiveOpener(s) by {
      forall i | 0 <= i < |s| && FenceAt(s, i) ensures '\n' !in s[i + 3..] {
        assert s == s[..i + 3] + s[i + 3..];
      }
    }
    StripOpenersIdle(s);
    RemoveClosersIdle(s);
  }

  lemma TrailingFenceSurvives()
    ensures RemoveMarkdown("abc```") == "abc```"
  {
    SingleLineUnchanged("abc```");
  }

  /** The closing fence of a fenced block is the only live "\n```". */
  lemma {:induction false} ClosingFenceRemoved(body: string)
    requires NoFence(body)
    ensures RemoveClosers(body + Closer) == body
    decreases |body|
  {
    var s := body + Closer;
    if |body| == 0 {
      assert s == Closer;
      assert RemoveClosers(s) == RemoveClosers(s[4..]);
      assert s[4..] == "";
    } else {
      assert !(Closer <= s) by {
        assert s[|body|] == Closer[0];
        if Closer <= s && |body| >= 4 {
          assert s[..4] == Closer;
          assert body[1] == s[1] && body[2] == s[2] && body[3] == s[3];
          assert FenceAt(body, 1);
        }
      }
      assert NoFence(body[1..]) by {
        forall i | 0 <= i < |body[1..]| ensures !FenceAt(body[1..], i) {
          assert !FenceAt(body, i + 1);
        }
      }
      ClosingFenceRemoved(body[1..]);
      assert s[1..] == body[1..] + Closer;
      assert body == [body[0]] + body[1..];
    }
  }

  /** A fenced block "```<tag>\n<body>\n```" reduces to its body, whatever the
      tag; with tag "json" this is the "```json\n{body}\n```" reply the agents
      expect. */
  lemma FencedBlock(tag: string, body: string)
    requires '\n' !in tag
    requires NoFence(body)
    ensures RemoveMarkdown(Fence + tag + "\n" + body + Closer) == body
  {
    var s := Fence + tag + "\n" + body + Closer;
    var rest := body + Closer;
    assert s[3..] == tag + "\n" + rest;
    assert s[3..][|tag|] == '\n';
    var j := PyStr.IndexOf(s[3..], '\n');
    assert j == |tag| by {
      assert forall k | 0 <= k < |tag| :: s[3..][k] == tag[k];
    }
    assert OpensFence(s);
    assert s[3 + j + 1..] == rest;
    assert StripOpeners(s) == StripOpeners(rest);
    assert NoLiveOpener(rest) by {
      forall i | 0 <= i < |rest| && FenceAt(rest, i) ensures '\n' !in rest[i + 3..] {
        if i + 3 <= |body| {
          assert FenceAt(body, i);
        } else {
          assert rest[|body|] == '\n';
          assert i == |body| + 1;
          assert rest[i + 3..] == "";
        }
      }
    }
    StripOpenersIdle(rest);
    ClosingFenceRemoved(body);
  }

  /** The opener pass runs first: in "\n```abc\n" it deletes "```abc\n" before
      the closer pass could delete "\n```", leaving "\n" rather than "abc\n". */
  lemma OpenersBeforeClosers()
    ensures StripOpeners("\n```abc\n") == "\n"
    ensures RemoveMarkdown("\n```abc\n") == "\n"
    ensures RemoveClosers("\n```abc\n") == "abc\n"
  {
    var s := "\n```abc\n";
    assert !OpensFence(s);
    var t := s[1..];
    assert t == "```abc\n";
    assert t[3..] == "abc\n";
    assert PyStr.IndexOf(t[3..], '\n') == 3;
    assert OpensFence(t);
    assert t[7..] == "";
    assert StripOpeners(s) == "\n";
    assert RemoveClosers("\n") == "\n";
    assert Closer <= s;
    assert s[4..] == "abc\n";
    RemoveClosersIdle("abc\n");
  }
}

=== FILE: news_tables.dfy ===
/** The table scraping of start-with-agent/app.py: `extract_dates_from_news`,
    `extract_analysis_data` and the empty-input guards of the `/extract-dates`
    and `/extract-analysis` routes. `json.loads` is an input of the model; the
    two regular expressions are written out as scans over the text. */
module NewsTables {
  import opened Wrappers
  import opened PyStr
  import opened Json
  import opened StrOrder

  // ---------------------------------------------------------------------------
  // dates as text

  /** `\d`, restricted to the ASCII digits. */
  predicate IsDigit(c: char) {
    '0' <= c <= '9'
  }

  /** `\d{4}-\d{2}-\d{2}`. */
  predicate DateShape(d: string) {
    && |d| == 10
    && IsDigit(d[0]) && IsDigit(d[1]) && IsDigit(d[2]) && IsDigit(d[3])
    && d[4] == '-' && IsDigit(d[5]) && IsDigit(d[6])
    && d[7] == '-' && IsDigit(d[8]) && IsDigit(d[9])
  }

  function Value(c: char): nat
    requires IsDigit(c)
  {
    c as int - '0' as int
  }

  predicate IsLeap(year: int) {
    (year % 4 == 0 && year % 100 != 0) || year % 400 == 0
  }

  function DaysIn(year: int, month: int): int
    requires 1 <= month <= 12
  {
    if month == 2 then (if IsLeap(year) then 29 else 28)
    else if month == 4 || month == 6 || month == 9 || month == 11 then 30
    else 31
  }

  /** `datetime.strptime(d, '%Y-%m-%d')` succeeds: a year from 1, a month from
      1 to 12 and a day that exists in that month. */
  predicate ValidDate(d: string) {
    && DateShape(d)
    && var year := 1000 * Value(d[0]) + 100 * Value(d[1]) + 10 * Value(d[2]) + Value(d[3]);
       var month := 10 * Value(d[5]) + Value(d[6]);
       var day := 10 * Value(d[8]) + Value(d[9]);
       && 1 <= year
       && 1 <= month <= 12
       && 1 <= day <= DaysIn(year, month)
  }

  /** The calendar `strptime` enforces: no 30 February, and 29 February only
      in leap years, where a century year must divide by 400. */
  lemma NoThirtiethFebruary()
    ensures !ValidDate("2021-02-30") && ValidDate("2021-03-01")
  {
    var a := "2021-02-30";
    assert a[0] == '2' && a[1] == '0' && a[2] == '2' && a[3] == '1' && a[4] == '-';
    assert a[5] == '0' && a[6] == '2' && a[7] == '-' && a[8] == '3' && a[9] == '0';
    var b := "2021-03-01";
    assert b[0] == '2' && b[1] == '0' && b[2] == '2' && b[3] == '1' && b[4] == '-';
    assert b[5] == '0' && b[6] == '3' && b[7] == '-' && b[8] == '0' && b[9] == '1';
  }

  lemma LeapDays()
    ensures ValidDate("2024-02-29") && !ValidDate("2023-02-29")
  {
    var c := "2024-02-29";
    assert c[0] == '2' && c[1] == '0' && c[2] == '2' && c[3] == '4' && c[4] == '-';
    assert c[5] == '0' && c[6] == '2' && c[7] == '-' && c[8] == '2' && c[9] == '9';
    var e := "2023-02-29";
    assert e[0] == '2' && e[1] == '0' && e[2] == '2' && e[3] == '3' && e[4] == '-';
    assert e[5] == '0' && e[6] == '2' && e[7] == '-' && e[8] == '2' && e[9] == '9';
  }

  lemma CenturyLeapDays()
    ensures ValidDate("2000-02-29") && !ValidDate("1900-02-29")
  {
    var f := "2000-02-29";
    assert f[0] == '2' && f[1] == '0' && f[2] == '0' && f[3] == '0' && f[4] == '-';
    assert f[5] == '0' && f[6] == '2' && f[7] == '-' && f[8] == '2' && f[9] == '9';
    var g := "1900-02-29";
    assert g[0] == '1' && g[1] == '9' && g[2] == '0' && g[3] == '0' && g[4] == '-';
    assert g[5] == '0' && g[6] == '2' && g[7] == '-' && g[8] == '2' && g[9] == '9';
  }

  // ---------------------------------------------------------------------------
  // `re.findall(r'\| (\d{4}-\d{2}-\d{2}) \|', text)`

  /** A date cell `| dddd-dd-dd |` (fourteen characters) starts at position i. */
  predicate DateCellAt(s: string, i: nat) {
    && i + 14 <= |s|
    && s[i] == '|' && s[i + 1] == ' '
    && DateShape(s[i + 2..i + 12])
    && s[i + 12] == ' ' && s[i + 13] == '|'
  }

  /** The scan of `re.findall` from position i: after a match it resumes behind
      the match, so two matches never share a character. */
  function FindDatesFrom(s: string, i: nat): (ds: seq<string>)
    requires i <= |s|
    ensures forall d | d in ds :: DateShape(d) && exists j | i <= j :: DateCellAt(s, j) && s[j + 2..j + 12] == d
    decreases |s| - i
  {
    if i + 14 > |s| then []
    else if DateCellAt(s, i) then [s[i + 2..i + 12]] + FindDatesFrom(s, i + 14)
    else FindDatesFrom(s, i + 1)
  }

  function FindDates(s: string): (ds: seq<string>)
    ensures forall d | d in ds :: DateShape(d) && exists j :: DateCellAt(s, j) && s[j + 2..j + 12] == d
  {
    FindDatesFrom(s, 0)
  }

  /** Completeness of the scan: a date cell is found unless another date cell
      starts fewer than fourteen characters before it (the two then overlap,
      and the earlier one may have consumed the shared `|`). */
  lemma {:induction false} CellFoundFrom(s: string, k: nat, i: nat)
    requires k <= i && DateCellAt(s, i)
    requires forall j | k <= j < i && i < j + 14 :: !DateCellAt(s, j)
    ensures s[i + 2..i + 12] in FindDatesFrom(s, k)
    decreases i - k
  {
    if k < i {
      var rest := FindDatesFrom(s, k);
      if DateCellAt(s, k) {
        assert k + 14 <= i;
        assert rest == [s[k + 2..k + 12]] + FindDatesFrom(s, k + 14);
        CellFoundFrom(s, k + 14, i);
      } else {
        assert rest == FindDatesFrom(s, k + 1);
        CellFoundFrom(s, k + 1, i);
      }
    }
  }

  lemma CellFound(s: string, i: nat)
    requires DateCellAt(s, i)
    requires forall j | 0 <= j < i && i < j + 14 :: !DateCellAt(s, j)
    ensures s[i + 2..i + 12] in FindDates(s)
  {
    CellFoundFrom(s, 0, i);
  }

  /** Two date cells that share their `|`, as adjacent cells of one row do:
      only the first is found. */
  lemma AdjacentCellMissed(d1: string, d2: string)
    requires DateShape(d1) && DateShape(d2)
    ensures var s := DateCell(d1) + " " + d2 + " |";
      && DateCellAt(s, 13)
      && FindDates(s) == [d1]
  {
    var s := DateCell(d1) + " " + d2 + " |";
    assert |s| == 27;
    assert s[2..12] == d1;
    assert s[15..25] == d2;
    assert s[0] == '|' && s[1] == ' ' && s[12] == ' ' && s[13] == '|';
    assert s[14] == ' ' && s[25] == ' ' && s[26] == '|';
    assert DateCellAt(s, 0);
    assert FindDatesFrom(s, 14) == [];
  }

  // ---------------------------------------------------------------------------
  // the JSON path of `extract_dates_from_news`

  /** What one pass of `for item in news_items` does with an item. */
  datatype ItemOutcome = Skip | Keep(date: string) | Raise

  /** `'date' in item` is a key test on a dict, a substring test on a string
      and a membership test on a list, and raises TypeError on None, a boolean
      or a number. `item['date']` raises on anything but a dict, and so does
      `strptime` on a value that is not a string; a string that is no calendar
      date raises the ValueError the loop skips. */
  function Examine(item: Json): (r: ItemOutcome)
    ensures r.Keep? ==> item.JObj? && ("date", JStr(r.date)) in item.fields && ValidDate(r.date)
    ensures r.Raise? <==>
      || item.JNull? || item.JBool? || item.JNum?
      || (item.JStr? && Contains(item.s, "date"))
      || (item.JArr? && JStr("date") in item.items)
      || (item.JObj? && HasKey(item.fields, "date") && !Get(item.fields, "date").value.JStr?)
    ensures r.Skip? && item.JObj? && HasKey(item.fields, "date") ==> !ValidDate(Get(item.fields, "date").value.s)
  {
    match item
    case JObj(fields) =>
      if !HasKey(fields, "date") then Skip
      else
        var v := Get(fields, "date").value;
        if !v.JStr? then Raise
        else if ValidDate(v.s) then Keep(v.s)
        else Skip
    case JStr(s) => if Contains(s, "date") then Raise else Skip
    case JArr(xs) => if JStr("date") in xs then Raise else Skip
    case _ => Raise
  }

  /** The loop over a list: the dates kept, in order, or None when an item
      raised (the outer handler then answers []). */
  function JsonDates(items: seq<Json>): (r: Option<seq<string>>)
    ensures r.None? <==> exists k | 0 <= k < |items| :: Examine(items[k]).Raise?
    ensures r.Some? ==> forall d | d in r.value :: exists k | 0 <= k < |items| :: Examine(items[k]) == Keep(d)
    ensures r.Some? ==> forall k | 0 <= k < |items| && Examine(items[k]).Keep? :: Examine(items[k]).date in r.value
    decreases |items|
  {
    if |items| == 0 then Some([])
    else
      var rest := JsonDates(items[1..]);
      assert forall k | 1 <= k < |items| :: items[k] == items[1..][k - 1];
      match Examine(items[0])
      case Raise => None
      case Skip => rest
      case Keep(d) => if rest.None? then None else Some([d] + rest.value)
  }

  /** `extract_dates_from_news`. Input that is not JSON goes to the table scan
      with no calendar check. Parsed JSON that is not a list gives []: a
      string iterates over characters, none holding "date"; a dict iterates over
      its keys, and a key holding "date" makes `item['date']` raise; anything
      else is not iterable. */
  function ExtractDatesFromNews(text: string, parse: string -> Option<Json>): (r: seq<string>)
    ensures StrictlySorted(r)
    ensures parse(text).None? ==> forall d :: d in r <==> d in FindDates(text)
    ensures parse(text).Some? ==> forall d | d in r :: ValidDate(d)
    ensures parse(text).Some? && !parse(text).value.JArr? ==> r == []
    ensures parse(text).Some? && parse(text).value.JArr? ==>
      match JsonDates(parse(text).value.items)
      case None => r == []
      case Some(ds) => forall d :: d in r <==> d in ds
  {
    match parse(text)
    case None => SortedUnique(FindDates(text))
    case Some(j) =>
      if !j.JArr? then []
      else
        match JsonDates(j.items)
        case None => []
        case Some(ds) =>
          assert forall d | d in ds :: ValidDate(d) by {
            forall d | d in ds ensures ValidDate(d) {
              var k :| 0 <= k < |j.items| && Examine(j.items[k]) == Keep(d);
            }
          }
          SortedUnique(ds)
  }

  /** On the JSON path a date that is not in the calendar is dropped. */
  lemma InvalidDateDropped(text: string, parse: string -> Option<Json>, bad: string, good: string)
    requires !ValidDate(bad) && ValidDate(good)
    requires parse(text) == Some(JArr([JObj([("date", JStr(bad))]), JObj([("date", JStr(good))])]))
    ensures ExtractDatesFromNews(text, parse) == [good]
  {
    var items := [JObj([("date", JStr(bad))]), JObj([("date", JStr(good))])];
    assert items[0].fields[0].0 == "date" && items[1].fields[0].0 == "date";
    assert Examine(items[0]) == Skip;
    assert Examine(items[1]) == Keep(good);
    var last := [items[1]];
    assert items[1..] == last && last[1..] == [];
    assert JsonDates(last[1..]) == Some([]);
    assert Examine(last[0]) == Keep(good);
    var r := JsonDates(last);
    assert r.Some? && [good] + [] == [good];
    assert r.value == [good];
    assert JsonDates(items) == Some([good]);
    SortedUniqueIsTheSortedSet([good], [good]);
  }

  /** On the table path a date cell is kept whatever its calendar value. */
  lemma TableDateUnchecked(d: string, parse: string -> Option<Json>)
    requires DateShape(d) && parse(DateCell(d)).None?
    ensures ExtractDatesFromNews(DateCell(d), parse) == [d]
  {
    var text := DateCell(d);
    assert text[2..12] == d;
    assert DateCellAt(text, 0);
    assert FindDatesFrom(text, 14) == [];
    SortedUniqueIsTheSortedSet([d], [d]);
  }

  // ---------------------------------------------------------------------------
  // `extract_analysis_data`

  /** The five columns that follow a date cell. */
  datatype Row = Row(impact: string, movement: string, volume: string, correlation: string, sentiment: string)

  function Cells(row: Row): seq<string> {
    [row.impact, row.movement, row.volume, row.correlation, row.sentiment]
  }

  /** The literal text `| d |` that `re.search` looks for. */
  function DateCell(d: string): string {
    "| " + d + " |"
  }

  predicate OccursAt(s: string, lit: string, j: nat) {
    j + |lit| <= |s| && s[j..j + |lit|] == lit
  }

  /** The first position at or after i where lit occurs. */
  function FindFrom(s: string, lit: string, i: nat): (r: Option<nat>)
    ensures r.Some? ==> i <= r.value && OccursAt(s, lit, r.value)
    ensures forall j | i <= j && (r.None? || j < r.value) :: !OccursAt(s, lit, j)
    decreases |s| + 1 - i
  {
    if i + |lit| > |s| then None
    else if s[i..i + |lit|] == lit then Some(i)
    else FindFrom(s, lit, i + 1)
  }

  /** A cell as the row holds it: stripped, and free of `|`. */
  predicate CleanCell(c: string) {
    '|' !in c && Strip(c) == c
  }

  predicate CleanRow(row: Row) {
    && CleanCell(row.impact) && CleanCell(row.movement) && CleanCell(row.volume)
    && CleanCell(row.correlation) && CleanCell(row.sentiment)
  }

  /** A character outside a string is outside its strip. */
  lemma StripInside(s: string, c: char)
    requires c !in s
    ensures c !in Strip(s)
  {
    var l := LStrip(s);
    assert c !in l by {
      assert l == s[|s| - |l|..];
    }
    assert Strip(s) == RStrip(l) == l[..|RStrip(l)|];
  }

  lemma StripClean(p: string)
    requires '|' !in p
    ensures CleanCell(Strip(p))
  {
    StripInside(p, '|');
    StripIdempotent(p);
  }

  /** The row read from the text behind `| d |`: the first five `|`-terminated
      pieces, stripped; None when fewer than five `|` follow. */
  function RowAfter(rest: string): (r: Option<Row>)
    ensures r.Some? <==> Count('|', rest) >= 5
    ensures r.Some? ==> CleanRow(r.value)
  {
    var pieces := Split('|', rest);
    SplitCount('|', rest);
    if |pieces| < 6 then None
    else
      StripClean(pieces[0]);
      StripClean(pieces[1]);
      StripClean(pieces[2]);
      StripClean(pieces[3]);
      StripClean(pieces[4]);
      Some(Row(Strip(pieces[0]), Strip(pieces[1]), Strip(pieces[2]), Strip(pieces[3]), Strip(pieces[4])))
  }

  /** `re.search(f'\| {date} \|.*?\|.*?\|.*?\|.*?\|.*?\|', text, re.DOTALL)`
      and the split of the match on `|`. The leftmost match starts at the first
      `| d |`, and exists when five more `|` follow it anywhere (the lazy `.*?`
      also crosses line breaks); the cells are the stripped texts between them. */
  function RowFor(s: string, d: string): (r: Option<Row>)
    ensures FindFrom(s, DateCell(d), 0).None? ==> r.None?
    ensures var f := FindFrom(s, DateCell(d), 0);
      f.Some? ==> (r.Some? <==> Count('|', s[f.value + |DateCell(d)|..]) >= 5)
    ensures r.Some? ==> CleanRow(r.value)
  {
    var f := FindFrom(s, DateCell(d), 0);
    if f.None? then None else RowAfter(s[f.value + |DateCell(d)|..])
  }

  lemma OccursBetween(pre: string, lit: string, after: string)
    ensures OccursAt(pre + lit + after, lit, |pre|)
    ensures (pre + lit + after)[|pre| + |lit|..] == after
  {
    var s := pre + lit + after;
    assert s[..|pre| + |lit|] == pre + lit;
    assert (pre + lit)[|pre|..] == lit;
  }

  lemma FirstOccurrence(s: string, lit: string, k: nat)
    requires OccursAt(s, lit, k)
    requires forall j | 0 <= j < k :: !OccursAt(s, lit, j)
    ensures FindFrom(s, lit, 0) == Some(k)
  {
  }

  /** Five `|`-free cells, each closed by `|`, then any text. */
  lemma RowAfterCells(cs: seq<string>, tail: string)
    requires |cs| == 5 && forall i | 0 <= i < 5 :: '|' !in cs[i]
    ensures RowAfter(Join("|", cs) + "|" + tail) == Some(Row(Strip(cs[0]), Strip(cs[1]), Strip(cs[2]), Strip(cs[3]), Strip(cs[4])))
  {
    var after := Join("|", cs) + "|" + tail;
    assert "|" == ['|'];
    SplitJoinThen('|', cs, tail);
    var pieces := Split('|', after);
    assert |pieces| >= 6;
    assert pieces[0] == cs[0] && pieces[1] == cs[1] && pieces[2] == cs[2] && pieces[3] == cs[3] && pieces[4] == cs[4];
  }

  /** The row read from a text of the shape `... | d | c0|c1|c2|c3|c4| ...`:
      whatever precedes the first `| d |` and whatever follows the sixth `|`. */
  lemma RowOfCells(s: string, pre: string, d: string, cs: seq<string>, tail: string)
    requires s == pre + DateCell(d) + (Join("|", cs) + "|" + tail)
    requires |cs| == 5 && forall i | 0 <= i < 5 :: '|' !in cs[i]
    requires forall j | 0 <= j < |pre| :: !OccursAt(s, DateCell(d), j)
    ensures RowFor(s, d) == Some(Row(Strip(cs[0]), Strip(cs[1]), Strip(cs[2]), Strip(cs[3]), Strip(cs[4])))
  {
    OccursBetween(pre, DateCell(d), Join("|", cs) + "|" + tail);
    FirstOccurrence(s, DateCell(d), |pre|);
    RowAfterCells(cs, tail);
  }

  /** `extract_analysis_data`: a row for each date the scan finds and
      `re.search` can complete; {} when the scan finds nothing. */
  function ExtractAnalysisData(text: string): (r: map<string, Row>)
    ensures forall d | d in r :: DateShape(d) && d in FindDates(text) && RowFor(text, d) == Some(r[d])
    ensures forall d | d in FindDates(text) && RowFor(text, d).Some? :: d in r
    ensures FindDates(text) == [] ==> r == map[]
  {
    map d | d in FindDates(text) && RowFor(text, d).Some? :: RowFor(text, d).value
  }

  // ---------------------------------------------------------------------------
  // the two routes

  const NoNewsError: string := "No news data provided"
  const NoAnalysisError: string := "No analysis text provided"

  /** A route's answer: 400 with its message, 500 when reading the request
      raised (the message is Flask's), or 200 with the payload. */
  datatype Reply<T> = BadRequest(error: string) | ServerError | Ok(payload: T)

  /** `data.get(key, '')` on a decoded request body. */
  function Field(data: seq<(string, Json)>, key: string): (v: Json)
    ensures HasKey(data, key) ==> (key, v) in data
    ensures !HasKey(data, key) ==> v == JStr("")
  {
    Get(data, key).GetOr(JStr(""))
  }

  /** `/extract-dates`. `body` is what `request.get_json()` gives (None when it
      raises). A field that is not a string makes `json.loads` raise TypeError
      inside `extract_dates_from_news`, whose handler answers []. */
  function ExtractDatesRoute(body: Option<Json>, parse: string -> Option<Json>): (r: Reply<seq<string>>)
    ensures r.ServerError? <==> body.None? || !body.value.JObj?
    ensures r.BadRequest? <==> body.Some? && body.value.JObj? && !Truthy(Field(body.value.fields, "news_data"))
    ensures r.BadRequest? ==> r.error == NoNewsError
    ensures r.Ok? ==> match Field(body.value.fields, "news_data")
      case JStr(t) => r.payload == ExtractDatesFromNews(t, parse)
      case _ => r.payload == []
  {
    if body.None? || !body.value.JObj? then ServerError
    else
      var news := Field(body.value.fields, "news_data");
      if !Truthy(news) then BadRequest(NoNewsError)
      else if news.JStr? then Ok(ExtractDatesFromNews(news.s, parse))
      else Ok([])
  }

  /** `/extract-analysis`; a field that is not a string makes `re.findall`
      raise TypeError, whose handler answers {}. */
  function ExtractAnalysisRoute(body: Option<Json>): (r: Reply<map<string, Row>>)
    ensures r.ServerError? <==> body.None? || !body.value.JObj?
    ensures r.BadRequest? <==> body.Some? && body.value.JObj? && !Truthy(Field(body.value.fields, "analysis_text"))
    ensures r.BadRequest? ==> r.error == NoAnalysisError
    ensures r.Ok? ==> match Field(body.value.fields, "analysis_text")
      case JStr(t) => r.payload == ExtractAnalysisData(t)
      case _ => r.payload == map[]
  {
    if body.None? || !body.value.JObj? then ServerError
    else
      var text := Field(body.value.fields, "analysis_text");
      if !Truthy(text) then BadRequest(NoAnalysisError)
      else if text.JStr? then Ok(ExtractAnalysisData(text.s))
      else Ok(map[])
  }
}

=== FILE: planner.dfy ===
/** `generate_plan` of embeddings-demo/backend/cognitive_layers/decision.py: the
    fragments it renders into the prompt (memories, tool context, tool hint) and
    the selection of the plan line from the model's reply. The prompt wording
    and the Gemini call are not modelled; the reply (or its absence, when the
    call or the reply handling raised) is an input. */
module Planner {
  import opened Wrappers
  import opened PyStr

  datatype MemoryItem = MemoryItem(text: string)

  datatype Perception = Perception(userInput: string, intent: string, entities: seq<string>, toolHint: Option<string>)

  const FunctionCallPrefix: string := "FUNCTION_CALL:"
  const FinalAnswerPrefix: string := "FINAL_ANSWER:"
  const UnknownPlan: string := "FINAL_ANSWER: [unknown]"
  const ToolsHeader: string := "\nYou have access to the following tools:\n"

  function MemoryLines(items: seq<MemoryItem>): (ls: seq<string>)
    ensures |ls| == |items|
    ensures forall i | 0 <= i < |items| :: ls[i] == "- " + items[i].text
  {
    if |items| == 0 then [] else ["- " + items[0].text] + MemoryLines(items[1..])
  }

  /** `"\n".join(f"- {m.text}" for m in memory_items) or "None"`. */
  function MemoryBlock(items: seq<MemoryItem>): (r: string)
    ensures items == [] <==> r == "None"
    ensures items != [] ==> r == Join("\n", MemoryLines(items))
  {
    var joined := Join("\n", MemoryLines(items));
    MemoryJoinShape(items);
    if joined == "" then "None" else joined
  }

  /** With at least one item the joined lines start with "- ". */
  lemma MemoryJoinShape(items: seq<MemoryItem>)
    ensures var joined := Join("\n", MemoryLines(items));
            && (items == [] ==> joined == "")
            && (items != [] ==> |joined| >= 2 && joined[0] == '-')
  {
    if items != [] {
      var ls := MemoryLines(items);
      JoinStartsWithFirst("\n", ls);
      assert ls[0][0] == '-';
    }
  }

  lemma JoinStartsWithFirst(sep: string, ls: seq<string>)
    requires |ls| > 0
    ensures ls[0] <= Join(sep, ls)
  {
  }

  lemma LineKeepsNoBreak(t: string)
    requires '\n' !in t
    ensures '\n' !in "- " + t
  {
    assert "- " + t == ['-', ' '] + t;
  }

  /** The memory block has one "- text" line per item, in order (for texts
      without line breaks of their own). */
  lemma MemoryBlockLines(items: seq<MemoryItem>)
    requires items != []
    requires forall i | 0 <= i < |items| :: '\n' !in items[i].text
    ensures Split('\n', MemoryBlock(items)) == MemoryLines(items)
  {
    var ls := MemoryLines(items);
    forall i | 0 <= i < |ls| ensures '\n' !in ls[i] {
      LineKeepsNoBreak(items[i].text);
    }
    SplitJoin('\n', ls);
    assert "\n" == ['\n'];
  }

  /** The `tool_context` fragment: empty exactly when there are no tool
      descriptions (None or empty), otherwise the header then the descriptions. */
  function ToolContext(toolDescriptions: Option<string>): (r: string)
    ensures r == "" <==> toolDescriptions.None? || toolDescriptions == Some("")
    ensures r != "" ==> r == ToolsHeader + toolDescriptions.value
  {
    if toolDescriptions.Some? && toolDescriptions.value != "" then ToolsHeader + toolDescriptions.value else ""
  }

  /** `perception.tool_hint or 'None'`. */
  function ToolHintText(p: Perception): (r: string)
    ensures p.toolHint.None? || p.toolHint == Some("") ==> r == "None"
    ensures p.toolHint.Some? && p.toolHint.value != "" ==> r == p.toolHint.value
    ensures r != ""
  {
    if p.toolHint.Some? && p.toolHint.value != "" then p.toolHint.value else "None"
  }

  predicate IsPlanText(t: string) {
    FunctionCallPrefix <= t || FinalAnswerPrefix <= t
  }

  predicate IsPlanLine(line: string) {
    IsPlanText(Strip(line))
  }

  function StripAll(lines: seq<string>): (ts: seq<string>)
    ensures |ts| == |lines| && forall i | 0 <= i < |lines| :: ts[i] == Strip(lines[i])
  {
    if |lines| == 0 then [] else [Strip(lines[0])] + StripAll(lines[1..])
  }

  /** The first stripped line that starts with either prefix. */
  function FirstPlanText(ts: seq<string>): (r: Option<nat>)
    ensures r.None? <==> forall i | 0 <= i < |ts| :: !IsPlanText(ts[i])
    ensures r.Some? ==>
      && r.value < |ts| && IsPlanText(ts[r.value])
      && (forall j | 0 <= j < r.value :: !IsPlanText(ts[j]))
  {
    if |ts| == 0 then None
    else if IsPlanText(ts[0]) then Some(0)
    else
      var tail := ts[1..];
      var r := FirstPlanText(tail);
      assert forall j | 1 <= j < |ts| :: ts[j] == tail[j - 1];
      if r.None? then None else Some(r.value + 1)
  }

  /** The plan chosen from an already stripped reply. */
  function SelectPlan(raw: string): (plan: string)
    ensures IsPlanText(plan) || plan == raw
  {
    var ts := StripAll(SplitLines(raw));
    match FirstPlanText(ts)
    case Some(i) => ts[i]
    case None => raw
  }

  /** `generate_plan`'s handling of the reply text: no reply gives the unknown
      answer; otherwise the plan is a stripped line starting with one of the two
      prefixes, or failing that the whole stripped reply. */
  function GeneratePlan(reply: Option<string>): (plan: string)
    ensures reply.None? ==> plan == UnknownPlan
    ensures reply.Some? ==> IsPlanText(plan) || plan == Strip(reply.value)
  {
    if reply.None? then UnknownPlan else SelectPlan(Strip(reply.value))
  }

  lemma FirstPlanOfTexts(ts: seq<string>, i: nat)
    requires i < |ts| && IsPlanText(ts[i])
    requires forall j | 0 <= j < i :: !IsPlanText(ts[j])
    ensures FirstPlanText(ts) == Some(i)
  {
  }

  lemma FirstPlanOfLines(lines: seq<string>, i: nat)
    requires i < |lines| && IsPlanLine(lines[i])
    requires forall j | 0 <= j < i :: !IsPlanLine(lines[j])
    ensures FirstPlanText(StripAll(lines)) == Some(i)
  {
    var ts := StripAll(lines);
    StrippedPlan(lines, ts, i);
    forall j | 0 <= j < i ensures !IsPlanText(ts[j]) {
      StrippedPlan(lines, ts, j);
    }
    FirstPlanOfTexts(ts, i);
  }

  lemma StrippedPlan(lines: seq<string>, ts: seq<string>, j: nat)
    requires ts == StripAll(lines) && j < |lines|
    ensures IsPlanText(ts[j]) == IsPlanLine(lines[j])
  {
    var t := Strip(lines[j]);
    assert ts[j] == t;
    assert IsPlanLine(lines[j]) == IsPlanText(t);
  }

  lemma NoPlanOfLines(lines: seq<string>)
    requires forall j | 0 <= j < |lines| :: !IsPlanLine(lines[j])
    ensures FirstPlanText(StripAll(lines)) == None
  {
  }

  /** The first line that carries a plan is the one chosen, stripped. */
  lemma FirstPlanLineChosen(text: string, i: nat)
    requires var lines := SplitLines(Strip(text));
      && i < |lines| && IsPlanLine(lines[i])
      && forall j | 0 <= j < i :: !IsPlanLine(lines[j])
    ensures GeneratePlan(Some(text)) == Strip(SplitLines(Strip(text))[i])
  {
    FirstPlanOfLines(SplitLines(Strip(text)), i);
  }

  /** With no line carrying a plan the whole stripped reply is the plan. */
  lemma NoPlanLineFallback(text: string)
    requires var lines := SplitLines(Strip(text));
      forall j | 0 <= j < |lines| :: !IsPlanLine(lines[j])
    ensures GeneratePlan(Some(text)) == Strip(text)
  {
    SelectPlanFallback(Strip(text));
  }

  lemma SelectPlanFallback(raw: string)
    requires forall j | 0 <= j < |SplitLines(raw)| :: !IsPlanLine(SplitLines(raw)[j])
    ensures SelectPlan(raw) == raw
  {
    var lines := SplitLines(raw);
    NoPlanOfLines(lines);
  }

  /** Every plan is already stripped. */
  lemma PlanIsStripped(reply: Option<string>)
    ensures Strip(GeneratePlan(reply)) == GeneratePlan(reply)
  {
    if reply.None? {
      StripTrimmed(UnknownPlan);
    } else {
      var lines := SplitLines(Strip(reply.value));
      match FirstPlanText(StripAll(lines))
      case Some(i) => StripIdempotent(lines[i]);
      case None => StripIdempotent(reply.value);
    }
  }
}

=== FILE: py_repr.dfy ===
/** Python's `repr()` of a `str` (CPython's `unicode_repr`): the text between
    quotes, single quotes unless the text holds a single quote and no double
    quote, with the backslash, the chosen quote, tab, newline, carriage return
    and non-printable code points escaped. `UnescapeText` reads the escapes
    back and is the partner of `EscapeText`. */
module PyRepr {
  import opened Wrappers
  import PyStr

  const Backslash: char := '\\'
  const SingleQuote: char := '\''
  const DoubleQuote: char := '"'

  /** The quote `repr` puts around s. */
  function QuoteFor(s: string): (q: char)
    ensures q == DoubleQuote <==> SingleQuote in s && DoubleQuote !in s
    ensures q == SingleQuote || q == DoubleQuote
  {
    if SingleQuote in s && DoubleQuote !in s then DoubleQuote else SingleQuote
  }

  /** `str.isprintable` for one code point. Exact up to U+00FF and for the
      space and line separators; other non-ASCII code points count as
      printable. */
  predicate Printable(c: char) {
    var n := c as int;
    && n >= 0x20 && n != 0x7F
    && !(0x80 <= n <= 0xA0) && n != 0xAD
    && !(n > 0xFF && PyStr.IsSpace(c))
  }

  function HexDigit(d: nat): (c: char)
    requires d < 16
  {
    "0123456789abcdef"[d]
  }

  function HexDigitValue(c: char): Option<nat> {
    if '0' <= c <= '9' then Some(c as int - '0' as int)
    else if 'a' <= c <= 'f' then Some(c as int - 'a' as int + 10)
    else None
  }

  function Pow16(w: nat): nat {
    if w == 0 then 1 else 16 * Pow16(w - 1)
  }

  /** The w lowest hex digits of n, lower-case, most significant first. */
  function Hex(n: nat, w: nat): (h: string)
    ensures |h| == w
  {
    if w == 0 then "" else Hex(n / 16, w - 1) + [HexDigit(n % 16)]
  }

  function HexValue(h: string): Option<nat>
    decreases |h|
  {
    if |h| == 0 then Some(0)
    else
      var high := HexValue(h[..|h| - 1]);
      var low := HexDigitValue(h[|h| - 1]);
      if high.None? || low.None? then None else Some(high.value * 16 + low.value)
  }

  /** The escape for a non-printable code point: `\xhh`, `\uhhhh` or
      `\Uhhhhhhhh`. */
  function HexEscape(c: char): string {
    var n := c as int;
    if n < 0x100 then [Backslash, 'x'] + Hex(n, 2)
    else if n < 0x10000 then [Backslash, 'u'] + Hex(n, 4)
    else [Backslash, 'U'] + Hex(n, 8)
  }

  /** How one code point appears between the quotes q. */
  function EscapeChar(c: char, q: char): string {
    if c == q || c == Backslash then [Backslash, c]
    else if c == '\t' then [Backslash, 't']
    else if c == '\n' then [Backslash, 'n']
    else if c == '\r' then [Backslash, 'r']
    else if !Printable(c) then HexEscape(c)
    else [c]
  }

  function EscapeText(s: string, q: char): string
    decreases |s|
  {
    if |s| == 0 then "" else EscapeChar(s[0], q) + EscapeText(s[1..], q)
  }

  /** Python's `repr(s)`. */
  function ReprString(s: string): string {
    var q := QuoteFor(s);
    [q] + EscapeText(s, q) + [q]
  }

  function Prepend(c: char, o: Option<string>): Option<string> {
    if o.None? then None else Some([c] + o.value)
  }

  /** Reads the text between the quotes back, escape by escape. */
  function UnescapeText(t: string): Option<string>
    decreases |t|
  {
    if |t| == 0 then Some("")
    else if t[0] != Backslash then Prepend(t[0], UnescapeText(t[1..]))
    else if |t| < 2 then None
    else if t[1] == 't' then Prepend('\t', UnescapeText(t[2..]))
    else if t[1] == 'n' then Prepend('\n', UnescapeText(t[2..]))
    else if t[1] == 'r' then Prepend('\r', UnescapeText(t[2..]))
    else if t[1] in [Backslash, SingleQuote, DoubleQuote] then Prepend(t[1], UnescapeText(t[2..]))
    else if t[1] == 'x' then UnescapeHex(t, 2)
    else if t[1] == 'u' then UnescapeHex(t, 4)
    else if t[1] == 'U' then UnescapeHex(t, 8)
    else None
  }

  /** A backslash, a letter and w hex digits naming a code point. */
  function UnescapeHex(t: string, w: nat): Option<string>
    requires |t| >= 2
    decreases |t|, 0
  {
    if |t| < 2 + w then None
    else
      var v := HexValue(t[2..2 + w]);
      if v.None? || !(v.value < 0xD800 || 0xE000 <= v.value < 0x11_0000) then None
      else Prepend(v.value as char, UnescapeText(t[2 + w..]))
  }

  lemma {:induction false} HexRoundTrip(n: nat, w: nat)
    requires n < Pow16(w)
    ensures HexValue(Hex(n, w)) == Some(n)
    decreases w
  {
    if w > 0 {
      var h := Hex(n, w);
      var high := n / 16;
      var d := n % 16;
      SplitLowDigit(n, Pow16(w - 1));
      assert h[..|h| - 1] == Hex(high, w - 1);
      assert h[|h| - 1] == HexDigit(d);
      HexRoundTrip(high, w - 1);
      HexDigitRoundTrip(d);
    }
  }

  lemma SplitLowDigit(n: nat, p: nat)
    requires n < 16 * p
    ensures n / 16 < p && n == n / 16 * 16 + n % 16
  {
  }

  lemma HexDigitRoundTrip(d: nat)
    requires d < 16
    ensures HexDigitValue(HexDigit(d)) == Some(d)
  {
    assert "0123456789abcdef"[d] == HexDigit(d);
    if d < 10 {
      assert HexDigit(d) as int == '0' as int + d;
    } else {
      assert HexDigit(d) as int == 'a' as int + d - 10;
    }
  }

  lemma Pow16Widths()
    ensures Pow16(2) == 0x100 && Pow16(4) == 0x1_0000 && Pow16(8) == 0x1_0000_0000
  {
    assert Pow16(1) == 16;
    assert Pow16(2) == 0x100;
    assert Pow16(3) == 0x1000;
    assert Pow16(4) == 0x1_0000;
    assert Pow16(5) == 0x10_0000;
    assert Pow16(6) == 0x100_0000;
    assert Pow16(7) == 0x1000_0000;
  }

  /** `\`, a letter, w hex digits of n and the rest read back as n, then the rest. */
  lemma HexDigitsRoundTrip(letter: char, n: nat, w: nat, rest: string)
    requires (letter == 'x' && w == 2) || (letter == 'u' && w == 4) || (letter == 'U' && w == 8)
    requires n < Pow16(w) && (n < 0xD800 || 0xE000 <= n < 0x11_0000)
    ensures UnescapeText([Backslash, letter] + Hex(n, w) + rest) == Prepend(n as char, UnescapeText(rest))
  {
    HexRoundTrip(n, w);
    var t := [Backslash, letter] + Hex(n, w) + rest;
    assert t[0] == Backslash && t[1] == letter;
    UnescapeDispatch(t, letter, w);
    assert t[2..2 + w] == Hex(n, w);
    assert t[2 + w..] == rest;
  }

  lemma UnescapeDispatch(t: string, letter: char, w: nat)
    requires |t| >= 2 && t[0] == Backslash && t[1] == letter
    requires (letter == 'x' && w == 2) || (letter == 'u' && w == 4) || (letter == 'U' && w == 8)
    ensures UnescapeText(t) == UnescapeHex(t, w)
  {
  }

  lemma HexEscapeRoundTrip(c: char, rest: string)
    ensures UnescapeText(HexEscape(c) + rest) == Prepend(c, UnescapeText(rest))
  {
    var n := c as int;
    Pow16Widths();
    if n < 0x100 {
      HexDigitsRoundTrip('x', n, 2, rest);
    } else if n < 0x1_0000 {
      HexDigitsRoundTrip('u', n, 4, rest);
    } else {
      HexDigitsRoundTrip('U', n, 8, rest);
    }
  }

  lemma EscapeCharRoundTrip(c: char, q: char, rest: string)
    requires q == SingleQuote || q == DoubleQuote
    ensures UnescapeText(EscapeChar(c, q) + rest) == Prepend(c, UnescapeText(rest))
  {
    var e := EscapeChar(c, q);
    if c == q || c == Backslash || c == '\t' || c == '\n' || c == '\r' {
      assert (e + rest)[2..] == rest;
    } else if !Printable(c) {
      HexEscapeRoundTrip(c, rest);
    } else {
      assert (e + rest)[1..] == rest;
    }
  }

  /** s in front of a read-back text, or still nothing when that failed. */
  function PrependAll(s: string, o: Option<string>): Option<string> {
    if o.None? then None else Some(s + o.value)
  }

  lemma PrependStep(s: string, o: Option<string>)
    requires |s| > 0
    ensures Prepend(s[0], PrependAll(s[1..], o)) == PrependAll(s, o)
  {
    if o.Some? {
      assert [s[0]] + (s[1..] + o.value) == s + o.value;
    }
  }

  /** Reading the escapes back gives the text again, whatever follows. */
  lemma {:induction false} EscapeRoundTrip(s: string, q: char, rest: string)
    requires q == SingleQuote || q == DoubleQuote
    ensures UnescapeText(EscapeText(s, q) + rest) == PrependAll(s, UnescapeText(rest))
    decreases |s|
  {
    var u := UnescapeText(rest);
    if |s| == 0 {
      assert EscapeText(s, q) + rest == rest;
      if u.Some? {
        assert s + u.value == u.value;
      }
    } else {
      var tail := EscapeText(s[1..], q) + rest;
      assert EscapeText(s, q) + rest == EscapeChar(s[0], q) + tail;
      EscapeCharRoundTrip(s[0], q, tail);
      EscapeRoundTrip(s[1..], q, rest);
      PrependStep(s, u);
    }
  }

  /** `repr` loses nothing: the text between its quotes reads back as s. */
  lemma ReprRoundTrip(s: string)
    ensures var r := ReprString(s);
            && |r| >= 2 && r[0] == r[|r| - 1] == QuoteFor(s)
            && UnescapeText(r[1..|r| - 1]) == Some(s)
  {
    var q := QuoteFor(s);
    var r := ReprString(s);
    assert r[1..|r| - 1] == EscapeText(s, q);
    EscapeRoundTrip(s, q, "");
    assert EscapeText(s, q) + "" == EscapeText(s, q);
    assert s + "" == s;
  }

  /** A text of printable code points without a backslash or a single quote
      is shown as itself between single quotes. */
  lemma {:induction false} PlainRepr(s: string)
    requires forall k | 0 <= k < |s| :: Printable(s[k]) && s[k] != Backslash && s[k] != SingleQuote
    ensures ReprString(s) == [SingleQuote] + s + [SingleQuote]
  {
    PlainEscape(s, SingleQuote);
  }

  lemma {:induction false} PlainEscape(s: string, q: char)
    requires q == SingleQuote || q == DoubleQuote
    requires forall k | 0 <= k < |s| :: Printable(s[k]) && s[k] != Backslash && s[k] != q
    ensures EscapeText(s, q) == s
    decreases |s|
  {
    if |s| > 0 {
      PlainEscape(s[1..], q);
      assert s == [s[0]] + s[1..];
    }
  }

  /** A text with an apostrophe and no double quote is shown in double quotes,
      the apostrophe left as it is. */
  lemma ApostropheUsesDoubleQuotes()
    ensures ReprString("it's") == "\"it's\""
  {
    var s := "it's";
    assert s[2] == SingleQuote;
    assert QuoteFor(s) == DoubleQuote;
    PlainEscape(s, DoubleQuote);
  }
}

=== FILE: pystr.dfy ===
/** The handful of Python `str` operations the agents rely on, with Python's own
    semantics: `isspace`, `strip`, `split()` on whitespace runs, `split(sep)`,
    `sep.join`, `splitlines` and `str(n)` for a natural number. */
module PyStr {

  /** Python's `str.isspace` for one code point (the table CPython uses). */
  predicate IsSpace(c: char) {
    var n := c as int;
    || (0x09 <= n <= 0x0D)
    || (0x1C <= n <= 0x20)
    || n == 0x85 || n == 0xA0 || n == 0x1680
    || (0x2000 <= n <= 0x200A)
    || n == 0x2028 || n == 0x2029 || n == 0x202F || n == 0x205F || n == 0x3000
  }

  /** The code points at which Python's `str.splitlines` breaks a line. */
  predicate IsLineBoundary(c: char) {
    var n := c as int;
    || (0x0A <= n <= 0x0D)
    || (0x1C <= n <= 0x1E)
    || n == 0x85 || n == 0x2028 || n == 0x2029
  }

  predicate NoSpace(s: string) {
    forall k | 0 <= k < |s| :: !IsSpace(s[k])
  }

  predicate AllSpace(s: string) {
    forall k | 0 <= k < |s| :: IsSpace(s[k])
  }

  /** A word as `str.split()` produces it: non-empty, no whitespace. */
  predicate IsWord(w: string) {
    |w| > 0 && NoSpace(w)
  }

  // ---------------------------------------------------------------------------
  // strip

  function LStrip(s: string): (r: string)
    ensures |r| <= |s| && r == s[|s| - |r|..]
    ensures AllSpace(s[..|s| - |r|])
    ensures r == [] || !IsSpace(r[0])
    decreases |s|
  {
    if |s| > 0 && IsSpace(s[0]) then
      var r := LStrip(s[1..]);
      assert s[..|s| - |r|] == [s[0]] + s[1..][..|s| - 1 - |r|];
      r
    else s
  }

  function RStrip(s: string): (r: string)
    ensures |r| <= |s| && r == s[..|r|]
    ensures AllSpace(s[|r|..])
    ensures r == [] || !IsSpace(r[|r| - 1])
    decreases |s|
  {
    if |s| > 0 && IsSpace(s[|s| - 1]) then
      var r := RStrip(s[..|s| - 1]);
      assert s[|r|..] == s[..|s| - 1][|r|..] + [s[|s| - 1]];
      r
    else s
  }

  /** r stands in s at position a, with only whitespace before and after it. */
  predicate Trims(s: string, a: nat, r: string) {
    && a + |r| <= |s|
    && AllSpace(s[..a]) && r == s[a..a + |r|] && AllSpace(s[a + |r|..])
  }

  /** Python's `s.strip()`: the text with its leading and trailing whitespace
      cut off, and nothing else changed. */
  function Strip(s: string): (r: string)
    ensures |r| <= |s|
    ensures r == [] || (!IsSpace(r[0]) && !IsSpace(r[|r| - 1]))
    ensures r == [] <==> AllSpace(s)
    ensures Trims(s, |s| - |LStrip(s)|, r)
  {
    var l := LStrip(s);
    var r := RStrip(l);
    TrimmedInfix(s, l, r);
    r
  }

  /** Cutting leading whitespace and then trailing whitespace leaves an infix
      that neither begins nor ends with whitespace and has only whitespace on
      either side of it; it is empty exactly when the text is all whitespace. */
  lemma TrimmedInfix(s: string, l: string, r: string)
    requires |l| <= |s| && l == s[|s| - |l|..] && AllSpace(s[..|s| - |l|])
    requires l == [] || !IsSpace(l[0])
    requires |r| <= |l| && r == l[..|r|] && AllSpace(l[|r|..])
    requires r == [] || !IsSpace(r[|r| - 1])
    ensures r == [] || (!IsSpace(r[0]) && !IsSpace(r[|r| - 1]))
    ensures r == [] <==> AllSpace(s)
    ensures Trims(s, |s| - |l|, r)
  {
    var a := |s| - |l|;
    assert s[a + |r|..] == l[|r|..];
    if r == [] {
      assert l[|r|..] == l;
      assert s[..a] == s;
    } else {
      assert r[0] == l[0] == s[a];
    }
  }

  /** A string that begins and ends with a non-space is its own strip. */
  lemma StripTrimmed(s: string)
    requires s == [] || (!IsSpace(s[0]) && !IsSpace(s[|s| - 1]))
    ensures Strip(s) == s
  {
  }

  /** Stripping twice is stripping once. */
  lemma StripIdempotent(s: string)
    ensures Strip(Strip(s)) == Strip(s)
  {
    StripTrimmed(Strip(s));
  }

  // ---------------------------------------------------------------------------
  // substring test

  /** Python's `sub in s` for strings. */
  predicate Contains(s: string, sub: string) {
    exists k | 0 <= k <= |s| :: sub <= s[k..]
  }

  // ---------------------------------------------------------------------------
  // join and split on a separator

  /** Python's `sep.join(parts)`. */
  function Join(sep: string, parts: seq<string>): string
  {
    if |parts| == 0 then ""
    else if |parts| == 1 then parts[0]
    else parts[0] + sep + Join(sep, parts[1..])
  }

  function IndexOf(s: string, c: char): (i: nat)
    requires c in s
    ensures i < |s| && s[i] == c && c !in s[..i]
  {
    if s[0] == c then 0 else 1 + IndexOf(s[1..], c)
  }

  /** Python's `s.split(sep)` for a one-character separator. */
  function Split(sep: char, s: string): (r: seq<string>)
    ensures |r| >= 1
    ensures forall i | 0 <= i < |r| :: sep !in r[i]
    decreases |s|
  {
    if sep !in s then [s]
    else
      var i := IndexOf(s, sep);
      [s[..i]] + Split(sep, s[i + 1..])
  }

  /** Joining the pieces of a split gives the string back. */
  lemma {:induction false} JoinSplit(sep: char, s: string)
    ensures Join([sep], Split(sep, s)) == s
    decreases |s|
  {
    if sep in s {
      var i := IndexOf(s, sep);
      var rest := Split(sep, s[i + 1..]);
      JoinSplit(sep, s[i + 1..]);
      assert Split(sep, s)[1..] == rest;
      assert s == s[..i] + [sep] + s[i + 1..];
    }
  }

  /** Splitting at the first separator: the piece before it, then the split
      of the rest. */
  lemma SplitAtFirst(sep: char, a: string, b: string)
    requires sep !in a
    ensures Split(sep, a + [sep] + b) == [a] + Split(sep, b)
  {
    var s := a + [sep] + b;
    assert s[|a|] == sep;
    var i := IndexOf(s, sep);
    assert i == |a| by {
      assert forall k | 0 <= k < |a| :: s[k] == a[k];
      assert sep !in s[..i];
    }
    assert s[..i] == a;
    assert s[i + 1..] == b;
  }

  /** Splitting a join of separator-free pieces gives the pieces back. */
  lemma {:induction false} SplitJoin(sep: char, parts: seq<string>)
    requires |parts| >= 1
    requires forall i | 0 <= i < |parts| :: sep !in parts[i]
    ensures Split(sep, Join([sep], parts)) == parts
    decreases |parts|
  {
    if |parts| > 1 {
      SplitAtFirst(sep, parts[0], Join([sep], parts[1..]));
      SplitJoin(sep, parts[1..]);
    }
  }

  lemma JoinThenUnfold(sep: char, parts: seq<string>, tail: string)
    requires |parts| > 1
    ensures Join([sep], parts) + [sep] + tail == parts[0] + [sep] + (Join([sep], parts[1..]) + [sep] + tail)
  {
  }

  lemma ConsAppend<T>(xs: seq<T>, ys: seq<T>)
    requires |xs| > 0
    ensures [xs[0]] + (xs[1..] + ys) == xs + ys
  {
    assert xs == [xs[0]] + xs[1..];
  }

  /** Splitting a join of separator-free pieces followed by a separator and
      any text: the pieces, then the split of that text. */
  lemma {:induction false} SplitJoinThen(sep: char, parts: seq<string>, tail: string)
    requires |parts| >= 1
    requires forall i | 0 <= i < |parts| :: sep !in parts[i]
    ensures Split(sep, Join([sep], parts) + [sep] + tail) == parts + Split(sep, tail)
    decreases |parts|
  {
    if |parts| == 1 {
      SplitAtFirst(sep, parts[0], tail);
    } else {
      JoinThenUnfold(sep, parts, tail);
      SplitAtFirst(sep, parts[0], Join([sep], parts[1..]) + [sep] + tail);
      SplitJoinThen(sep, parts[1..], tail);
      ConsAppend(parts, Split(sep, tail));
    }
  }

  /** Python's `s.count(c)` for one character. */
  function Count(c: char, s: string): nat
    decreases |s|
  {
    if |s| == 0 then 0 else (if s[0] == c then 1 else 0) + Count(c, s[1..])
  }

  lemma {:induction false} CountAppend(c: char, a: string, b: string)
    ensures Count(c, a + b) == Count(c, a) + Count(c, b)
    decreases |a|
  {
    if |a| > 0 {
      assert (a + b)[1..] == a[1..] + b;
      CountAppend(c, a[1..], b);
    } else {
      assert a + b == b;
    }
  }

  lemma {:induction false} CountAbsent(c: char, s: string)
    requires c !in s
    ensures Count(c, s) == 0
    decreases |s|
  {
    if |s| > 0 {
      CountAbsent(c, s[1..]);
    }
  }

  /** `s.split(sep)` has one piece more than s has separators. */
  lemma {:induction false} SplitCount(sep: char, s: string)
    ensures |Split(sep, s)| == Count(sep, s) + 1
    decreases |s|
  {
    if sep !in s {
      CountAbsent(sep, s);
    } else {
      var i := IndexOf(s, sep);
      assert s == s[..i] + [sep] + s[i + 1..];
      SplitAtFirst(sep, s[..i], s[i + 1..]);
      SplitCount(sep, s[i + 1..]);
      CountAppend(sep, s[..i] + [sep], s[i + 1..]);
      CountAppend(sep, s[..i], [sep]);
      CountAbsent(sep, s[..i]);
    }
  }

  // ---------------------------------------------------------------------------
  // split() on whitespace

  function WordLength(s: string): (n: nat)
    requires |s| > 0 && !IsSpace(s[0])
    ensures 1 <= n <= |s|
    ensures NoSpace(s[..n])
    ensures n == |s| || IsSpace(s[n])
    decreases |s|
  {
    if |s| == 1 || IsSpace(s[1]) then 1
    else
      var m := WordLength(s[1..]);
      assert s[..m + 1] == [s[0]] + s[1..][..m];
      m + 1
  }

  /** Python's `s.split()`: the maximal runs of non-whitespace, in order. */
  function SplitWords(s: string): (ws: seq<string>)
    ensures forall i | 0 <= i < |ws| :: IsWord(ws[i])
    decreases |s|
  {
    if |s| == 0 then []
    else if IsSpace(s[0]) then SplitWords(s[1..])
    else
      var n := WordLength(s);
      [s[..n]] + SplitWords(s[n..])
  }

  /** `split()` finds no word exactly when the text is empty or all whitespace. */
  lemma {:induction false} SplitWordsEmpty(s: string)
    ensures SplitWords(s) == [] <==> AllSpace(s)
    decreases |s|
  {
    if |s| > 0 && IsSpace(s[0]) {
      SplitWordsEmpty(s[1..]);
      assert forall k | 1 <= k < |s| :: s[k] == s[1..][k - 1];
    }
  }

  lemma WordThenSpace(w: string, t: string)
    requires IsWord(w)
    requires t == [] || IsSpace(t[0])
    ensures SplitWords(w + t) == [w] + SplitWords(t)
  {
    var s := w + t;
    var n := WordLength(s);
    assert n == |w| by {
      assert forall k | 0 <= k < |w| :: s[k] == w[k];
      assert NoSpace(s[..n]);
      assert |w| < |s| ==> s[|w|] == t[0];
    }
    assert s[..n] == w;
    assert s[n..] == t;
  }

  /** Words joined by single spaces split back into the same words. */
  lemma {:induction false} SplitWordsJoin(ws: seq<string>)
    requires forall i | 0 <= i < |ws| :: IsWord(ws[i])
    ensures SplitWords(Join(" ", ws)) == ws
    decreases |ws|
  {
    if |ws| == 1 {
      WordThenSpace(ws[0], "");
      assert ws[0] + "" == ws[0];
    } else if |ws| > 1 {
      var tail := Join(" ", ws[1..]);
      assert Join(" ", ws) == ws[0] + (" " + tail);
      WordThenSpace(ws[0], " " + tail);
      SpaceThenWords(tail);
      SplitWordsJoin(ws[1..]);
    }
  }

  lemma SpaceThenWords(t: string)
    ensures SplitWords(" " + t) == SplitWords(t)
  {
    assert (" " + t)[1..] == t;
  }

  // ---------------------------------------------------------------------------
  // splitlines

  function FirstBoundary(s: string): (i: nat)
    ensures i <= |s|
    ensures forall k | 0 <= k < i :: !IsLineBoundary(s[k])
    ensures i < |s| ==> IsLineBoundary(s[i])
  {
    if |s| == 0 || IsLineBoundary(s[0]) then 0 else 1 + FirstBoundary(s[1..])
  }

  /** Python's `s.splitlines()`: "\r\n" is one break, and a trailing break
      does not open an empty last line. */
  function SplitLines(s: string): (ls: seq<string>)
    ensures forall i, k | 0 <= i < |ls| && 0 <= k < |ls[i]| :: !IsLineBoundary(ls[i][k])
    decreases |s|
  {
    if |s| == 0 then []
    else
      var i := FirstBoundary(s);
      if i == |s| then [s]
      else
        var w := if s[i] == '\r' && i + 1 < |s| && s[i + 1] == '\n' then 2 else 1;
        [s[..i]] + SplitLines(s[i + w..])
  }

  /** For text whose only line breaks are "\n" and that does not end in one,
      the lines joined with "\n" give the text back. */
  lemma {:induction false} JoinSplitLines(s: string)
    requires forall k | 0 <= k < |s| :: IsLineBoundary(s[k]) ==> s[k] == '\n'
    requires s == [] || s[|s| - 1] != '\n'
    ensures Join("\n", SplitLines(s)) == s
    decreases |s|
  {
    if |s| > 0 {
      var i := FirstBoundary(s);
      if i < |s| {
        assert s[i] == '\n';
        var rest := s[i + 1..];
        assert rest != [];
        JoinSplitLines(rest);
        assert SplitLines(s)[1..] == SplitLines(rest);
        assert s == s[..i] + "\n" + rest;
      }
    }
  }

  // ---------------------------------------------------------------------------
  // str(n)

  function DigitChar(d: nat): (c: char)
    requires d < 10
    ensures '0' <= c <= '9'
    ensures c as int - '0' as int == d
  {
    ('0' as int + d) as char
  }

  /** The number a string of decimal digits denotes. */
  function DigitsValue(s: string): int
    decreases |s|
  {
    if |s| == 0 then 0 else DigitsValue(s[..|s| - 1]) * 10 + (s[|s| - 1] as int - '0' as int)
  }

  /** Python's `str(n)` for a natural number: the decimal digits of n, with no
      leading zero except for n = 0 itself. */
  function NatToString(n: nat): (r: string)
    ensures |r| >= 1
    ensures forall k | 0 <= k < |r| :: '0' <= r[k] <= '9'
    ensures DigitsValue(r) == n
    ensures r[0] == '0' <==> n == 0
    ensures n == 0 ==> r == "0"
  {
    if n < 10 then
      var r := [DigitChar(n)];
      assert r[..0] == [];
      r
    else
      var p := NatToString(n / 10);
      var r := p + [DigitChar(n % 10)];
      assert r[..|r| - 1] == p;
      r
  }
}

=== FILE: search_action.dfy ===
/** The `Action` class of embeddings-demo/backend/cognitive_layers/action.py:
    search replies with their history, and page previews. The HTTP request and
    the HTML parsing are foreign; what they yield comes in as a `Page`, or as
    the message of the exception they raised. */
module SearchAction {
  import opened Wrappers

  const NoResultsMessage: string := "No relevant results found"
  const PreviewLimit: nat := 200
  const Ellipsis: string := "..."

  datatype Search<T> = Search(query: string, results: seq<T>)

  datatype ActionState<T> = ActionState(history: seq<Search<T>>)

  datatype SearchReply<T> =
    | NoResults(message: string)
    | Found(results: seq<T>, totalResults: nat)

  /** `execute_search`: an empty result list is answered "no_results" and is
      not recorded; otherwise the search is appended to the history and the
      reply carries the results and their count. */
  function ExecuteSearch<T>(st: ActionState<T>, query: string, results: seq<T>): (r: (ActionState<T>, SearchReply<T>))
    ensures results == [] <==> r.1.NoResults?
    ensures r.1.NoResults? ==> r.0 == st && r.1.message == NoResultsMessage
    ensures r.1.Found? ==>
      && r.1.results == results && r.1.totalResults == |results|
      && |r.0.history| == |st.history| + 1
      && r.0.history[..|st.history|] == st.history
      && r.0.history[|st.history|] == Search(query, results)
  {
    if results == [] then (st, NoResults(NoResultsMessage))
    else (ActionState(st.history + [Search(query, results)]), Found(results, |results|))
  }

  /** The history holds exactly the searches that found something, in order. */
  function Recorded<T>(searches: seq<Search<T>>): seq<Search<T>>
  {
    if |searches| == 0 then []
    else (if searches[0].results == [] then [] else [searches[0]]) + Recorded(searches[1..])
  }

  function RunSearches<T>(st: ActionState<T>, searches: seq<Search<T>>): ActionState<T>
    decreases |searches|
  {
    if |searches| == 0 then st
    else RunSearches(ExecuteSearch(st, searches[0].query, searches[0].results).0, searches[1..])
  }

  lemma {:induction false} HistoryRecordsNonEmptySearches<T>(st: ActionState<T>, searches: seq<Search<T>>)
    ensures RunSearches(st, searches).history == st.history + Recorded(searches)
    decreases |searches|
  {
    if |searches| > 0 {
      var st1 := ExecuteSearch(st, searches[0].query, searches[0].results).0;
      HistoryRecordsNonEmptySearches(st1, searches[1..]);
      if searches[0].results == [] {
        assert st1 == st;
      } else {
        assert st1.history == st.history + [searches[0]];
      }
    }
  }

  /** What fetching and parsing the page gives: `Some(t)` for a `<title>`
      element whose `.string` is `t` (`None` inside when it has no single
      string), `None` for no title element; and the text of the first `<p>`. */
  datatype Page = Page(title: Option<Option<string>>, firstParagraph: Option<string>)

  datatype Preview =
    | PreviewOk(title: Option<string>, preview: string)
    | PreviewError(error: string)

  /** The preview text: at most 200 characters of the paragraph, followed by
      "..." when it was cut. */
  function Clip(text: string): (r: string)
    ensures |text| <= PreviewLimit ==> r == text
    ensures |text| > PreviewLimit ==>
      && |r| == PreviewLimit + |Ellipsis|
      && r[..PreviewLimit] == text[..PreviewLimit]
      && r[PreviewLimit..] == Ellipsis
  {
    if |text| > PreviewLimit then text[..PreviewLimit] + Ellipsis else text
  }

  /** `get_page_preview`: the title falls back to the url when the page has no
      title element; the preview is the clipped first paragraph, or "" without
      one; any exception becomes `success: False` with its message. */
  function GetPagePreview(url: string, page: Result<Page, string>): (r: Preview)
    ensures page.Failure? <==> r.PreviewError?
    ensures page.Failure? ==> r.error == page.error
    ensures r.PreviewOk? ==>
      && (page.value.title.None? ==> r.title == Some(url))
      && (page.value.title.Some? ==> r.title == page.value.title.value)
      && (page.value.firstParagraph.None? ==> r.preview == "")
      && (page.value.firstParagraph.Some? ==> r.preview == Clip(page.value.firstParagraph.value))
      && |r.preview| <= PreviewLimit + |Ellipsis|
  {
    match page
    case Failure(e) => PreviewError(e)
    case Success(p) =>
      var title := if p.title.Some? then p.title.value else Some(url);
      var text := if p.firstParagraph.Some? then p.firstParagraph.value else "";
      PreviewOk(title, Clip(text))
  }

  /** Clipping twice is clipping once: a clipped preview is cut back to the
      same 200 characters and gets the same ellipsis again. */
  lemma ClipIdempotent(text: string)
    ensures Clip(Clip(text)) == Clip(text)
  {
    if |text| > PreviewLimit {
      var once := Clip(text);
      assert once[..PreviewLimit] == text[..PreviewLimit];
      assert once == once[..PreviewLimit] + once[PreviewLimit..];
    }
  }
}

=== FILE: str_order.dfy ===
/** Python's ordering of strings (code point by code point, a proper prefix
    first) and `sorted(set(xs))` built on it: the duplicate-free, ascending list
    of the elements of xs. */
module StrOrder {

  predicate Less(a: string, b: string)
    decreases |a|
  {
    if |b| == 0 then false
    else if |a| == 0 then true
    else a[0] < b[0] || (a[0] == b[0] && Less(a[1..], b[1..]))
  }

  lemma {:induction false} LessIrreflexive(a: string)
    ensures !Less(a, a)
    decreases |a|
  {
    if |a| > 0 {
      LessIrreflexive(a[1..]);
    }
  }

  lemma {:induction false} LessTransitive(a: string, b: string, c: string)
    requires Less(a, b) && Less(b, c)
    ensures Less(a, c)
    decreases |a|
  {
    if |a| > 0 && a[0] == b[0] && b[0] == c[0] {
      LessTransitive(a[1..], b[1..], c[1..]);
    }
  }

  lemma {:induction false} LessTotal(a: string, b: string)
    requires a != b
    ensures Less(a, b) || Less(b, a)
    decreases |a|
  {
    if |a| > 0 && |b| > 0 && a[0] == b[0] {
      assert a == [a[0]] + a[1..] && b == [b[0]] + b[1..];
      LessTotal(a[1..], b[1..]);
    }
  }

  /** Strictly ascending, hence free of duplicates. */
  predicate StrictlySorted(xs: seq<string>) {
    forall i, j | 0 <= i < j < |xs| :: Less(xs[i], xs[j])
  }

  /** Puts x into its place in a strictly sorted list, unless it is there. */
  function Insert(xs: seq<string>, x: string): (r: seq<string>)
    requires StrictlySorted(xs)
    ensures StrictlySorted(r)
    ensures forall y :: y in r <==> y in xs || y == x
    decreases |xs|
  {
    if |xs| == 0 then [x]
    else if xs[0] == x then xs
    else if Less(x, xs[0]) then
      assert forall j | 0 < j < |xs| :: Less(x, xs[j]) by {
        forall j | 0 < j < |xs| ensures Less(x, xs[j]) {
          LessTransitive(x, xs[0], xs[j]);
        }
      }
      [x] + xs
    else
      LessTotal(x, xs[0]);
      var rest := Insert(xs[1..], x);
      assert forall y | y in rest :: Less(xs[0], y) by {
        forall y | y in rest ensures Less(xs[0], y) {
          if y != x {
            var j :| 0 <= j < |xs[1..]| && xs[1..][j] == y;
            assert xs[j + 1] == y;
          }
        }
      }
      assert forall y :: y in xs <==> y == xs[0] || y in xs[1..] by {
        assert xs == [xs[0]] + xs[1..];
      }
      [xs[0]] + rest
  }

  /** `sorted(list(set(xs)))`. */
  function SortedUnique(xs: seq<string>): (r: seq<string>)
    ensures StrictlySorted(r)
    ensures forall y :: y in r <==> y in xs
    decreases |xs|
  {
    if |xs| == 0 then []
    else
      var r := Insert(SortedUnique(xs[..|xs| - 1]), xs[|xs| - 1]);
      assert forall y :: y in xs <==> y in xs[..|xs| - 1] || y == xs[|xs| - 1] by {
        assert xs == xs[..|xs| - 1] + [xs[|xs| - 1]];
      }
      r
  }

  /** A strictly sorted list holds each element once. */
  lemma NoDuplicates(xs: seq<string>, i: int, j: int)
    requires StrictlySorted(xs)
    requires 0 <= i < |xs| && 0 <= j < |xs| && i != j
    ensures xs[i] != xs[j]
  {
    if i < j {
      LessIrreflexive(xs[i]);
    } else {
      LessIrreflexive(xs[j]);
    }
  }

  lemma HeadBelowTail(xs: seq<string>, y: string)
    requires StrictlySorted(xs) && |xs| > 0 && y in xs[1..]
    ensures Less(xs[0], y)
  {
    var j :| 0 <= j < |xs[1..]| && xs[1..][j] == y;
    assert xs[j + 1] == y;
  }

  /** The result depends only on the set of elements: two strictly sorted
      lists with the same elements are equal, so `SortedUnique` gives the one
      canonical list for each set. */
  lemma {:induction false} SortedUniqueCanonical(xs: seq<string>, ys: seq<string>)
    requires StrictlySorted(xs) && StrictlySorted(ys)
    requires forall y :: y in xs <==> y in ys
    ensures xs == ys
    decreases |xs|
  {
    assert |xs| == 0 <==> |ys| == 0 by {
      if |xs| > 0 { assert xs[0] in xs; }
      if |ys| > 0 { assert ys[0] in ys; }
    }
    if |xs| > 0 {
      assert xs == [xs[0]] + xs[1..] && ys == [ys[0]] + ys[1..];
      assert xs[0] in ys && ys[0] in xs;
      if xs[0] != ys[0] {
        HeadBelowTail(ys, xs[0]);
        HeadBelowTail(xs, ys[0]);
        LessTransitive(xs[0], ys[0], xs[0]);
        LessIrreflexive(xs[0]);
        assert false;
      }
      forall y ensures y in xs[1..] <==> y in ys[1..] {
        if y in xs[1..] {
          HeadBelowTail(xs, y);
          LessIrreflexive(y);
          assert y in ys;
        }
        if y in ys[1..] {
          HeadBelowTail(ys, y);
          LessIrreflexive(y);
          assert y in xs;
        }
      }
      SortedUniqueCanonical(xs[1..], ys[1..]);
    }
  }

  /** `SortedUnique` as a specification: its result is the only strictly sorted
      list holding exactly the elements of xs. */
  lemma SortedUniqueIsTheSortedSet(xs: seq<string>, ys: seq<string>)
    requires StrictlySorted(ys)
    requires forall y :: y in ys <==> y in xs
    ensures SortedUnique(xs) == ys
  {
    SortedUniqueCanonical(SortedUnique(xs), ys);
  }
}

=== FILE: tool_catalog.dfy ===
/** The numbered tool list the agents put in their prompts, built the same way
    by `update_tools_description` in agent-layers-demo/memory.py and inline in
    cot-demo/main.py: one line "N. name(p: type, ...) - description" per tool,
    or "N. Error processing tool" when reading the tool's input schema raises. */
module ToolCatalog {
  import opened Wrappers
  import opened PyStr
  import opened Json

  /** A tool as the MCP session lists it. `name` is `None` when the object has
      no such attribute; `description` is `None` for a missing attribute and
      `Some(None)` for an attribute holding Python's None. */
  datatype Tool = Tool(name: Option<string>, description: Option<Option<string>>, inputSchema: Json)

  const NoDescription: string := "No description available"
  const NoParameters: string := "no parameters"
  const UnknownType: string := "unknown"
  const ErrorLine: string := "Error processing tool"
  const Properties: string := "properties"

  /** Python's `"properties" in params`; `None` when the test itself raises
      (a number, a boolean or None on the right of `in`). */
  function MentionsProperties(params: Json): (r: Option<bool>)
    ensures r.None? <==> params.JNull? || params.JBool? || params.JNum?
  {
    match params
    case JObj(fields) => Some(HasKey(fields, Properties))
    case JArr(items) => Some(JStr(Properties) in items)
    case JStr(s) => Some(Contains(s, Properties))
    case _ => None
  }

  /** `f"{param_name}: {param_info.get('type', 'unknown')}"` for each entry;
      `None` when some `param_info` is not a dict (`.get` raises). */
  function ParamDetails(props: seq<(string, Json)>): (r: Option<seq<string>>)
    ensures r.Some? <==> forall k | 0 <= k < |props| :: props[k].1.JObj?
    ensures r.Some? ==>
      && |r.value| == |props|
      && (forall k | 0 <= k < |props| ::
            r.value[k] == props[k].0 + ": " + TypeText(props[k].1.fields))
  {
    if |props| == 0 then Some([])
    else if !props[0].1.JObj? then None
    else
      var rest := ParamDetails(props[1..]);
      assert forall k | 1 <= k < |props| :: props[k] == props[1..][k - 1];
      if rest.None? then None
      else Some([props[0].0 + ": " + TypeText(props[0].1.fields)] + rest.value)
  }

  /** The type shown for one parameter: `str()` of its "type" entry, or
      "unknown" without one. */
  function TypeText(info: seq<(string, Json)>): (r: string)
    ensures !HasKey(info, "type") ==> r == UnknownType
    ensures HasKey(info, "type") ==> exists v :: ("type", v) in info && r == Str(v)
  {
    match Get(info, "type")
    case None => UnknownType
    case Some(v) => Str(v)
  }

  /** The text between the parentheses; `None` when computing it raises:
      the `in` test raises, or `params["properties"]` indexes a list or a
      string with a string, or the properties are not a dict (`.items()`
      raises), or some parameter's info is not a dict. */
  function ParamsText(params: Json): (r: Option<string>)
    ensures MentionsProperties(params).None? ==> r.None?
    ensures MentionsProperties(params) == Some(false) ==> r == Some(NoParameters)
    ensures MentionsProperties(params) == Some(true) && !params.JObj? ==> r.None?
    ensures params.JObj? && HasKey(params.fields, Properties) ==>
      var props := Get(params.fields, Properties).value;
      && (r.Some? <==> props.JObj? && ParamDetails(props.fields).Some?)
      && (r.Some? ==> r.value == Join(", ", ParamDetails(props.fields).value))
  {
    match MentionsProperties(params)
    case None => None
    case Some(false) => Some(NoParameters)
    case Some(true) =>
      if !params.JObj? then None
      else
        var props := Get(params.fields, Properties).value;
        if !props.JObj? then None
        else
          match ParamDetails(props.fields)
          case None => None
          case Some(details) => Some(Join(", ", details))
  }

  function NameText(i: nat, tool: Tool): string {
    if tool.name.Some? then tool.name.value else "tool_" + NatToString(i)
  }

  function DescriptionText(tool: Tool): string {
    match tool.description
    case None => NoDescription
    case Some(None) => "None"
    case Some(Some(d)) => d
  }

  /** The line for the tool at (0-based) position i. */
  function ToolLine(i: nat, tool: Tool): (line: string)
    ensures NatToString(i + 1) + ". " <= line
    ensures ParamsText(tool.inputSchema).None? ==> line == NatToString(i + 1) + ". " + ErrorLine
    ensures ParamsText(tool.inputSchema).Some? ==>
      line == NatToString(i + 1) + ". " + NameText(i, tool) + "(" + ParamsText(tool.inputSchema).value + ") - " + DescriptionText(tool)
  {
    var head := NatToString(i + 1) + ". ";
    match ParamsText(tool.inputSchema)
    case None => head + ErrorLine
    case Some(ps) => head + NameText(i, tool) + "(" + ps + ") - " + DescriptionText(tool)
  }

  function ToolLines(tools: seq<Tool>, from: nat): (ls: seq<string>)
    ensures |ls| == |tools|
    ensures forall k | 0 <= k < |tools| :: ls[k] == ToolLine(from + k, tools[k])
    decreases |tools|
  {
    if |tools| == 0 then [] else [ToolLine(from, tools[0])] + ToolLines(tools[1..], from + 1)
  }

  /** `"\n".join(descriptions)`: empty without tools, otherwise opening with
      the first tool's line, numbered 1. */
  function ToolsDescription(tools: seq<Tool>): (r: string)
    ensures r == "" <==> tools == []
    ensures tools != [] ==> ToolLine(0, tools[0]) <= r && NatToString(1) + ". " <= r
  {
    var ls := ToolLines(tools, 0);
    var r := Join("\n", ls);
    assert |ls| >= 2 ==> r == ls[0] + ("\n" + Join("\n", ls[1..]));
    r
  }

  /** Digits, ". " and the error text hold no parenthesis. */
  lemma ErrorLineHasNoParen(i: nat)
    ensures '(' !in NatToString(i) + ". " + ErrorLine
  {
    var head := NatToString(i);
    var line := head + ". " + ErrorLine;
    forall k | 0 <= k < |line| ensures line[k] != '(' {
      if k < |head| {
        assert line[k] == head[k];
      } else {
        assert line[k] == (". " + ErrorLine)[k - |head|];
      }
    }
  }

  /** A tool's line is the error line exactly when reading its schema raises:
      every other line has a "(" after the name, which the error line lacks. */
  lemma ErrorLineExactlyOnRaise(i: nat, tool: Tool)
    ensures ToolLine(i, tool) == NatToString(i + 1) + ". " + ErrorLine
            <==> ParamsText(tool.inputSchema).None?
  {
    var head := NatToString(i + 1) + ". ";
    var line := ToolLine(i, tool);
    ErrorLineHasNoParen(i + 1);
    if ParamsText(tool.inputSchema).Some? {
      var name := NameText(i, tool);
      assert line[|head| + |name|] == '(';
    }
  }

  /** The description has one line per tool, numbered from 1, as long as no
      name, parameter or description brings a line break of its own. */
  lemma OneLinePerTool(tools: seq<Tool>)
    requires tools != []
    requires forall k | 0 <= k < |tools| :: '\n' !in ToolLine(k, tools[k])
    ensures var lines := Split('\n', ToolsDescription(tools));
      && |lines| == |tools|
      && forall k | 0 <= k < |tools| ::
           lines[k] == ToolLine(k, tools[k]) && NatToString(k + 1) + ". " <= lines[k]
  {
    var ls := ToolLines(tools, 0);
    SplitJoin('\n', ls);
    assert "\n" == ['\n'];
  }
}

=== FILE: vector_memory.dfy ===
/** The embedding memory of the URL-ingest backend
    (embeddings-demo/backend/cognitive_layers/memory.py): overlapping word-window
    chunking, the parallel `documents`/`urls` lists, and mapping the positions a
    FAISS search returns back to stored chunks. The FAISS index is reduced to
    what the code observes of it (whether it exists, how many vectors it holds),
    and its search answer is an input. */
module VectorMemory {
  import opened Wrappers
  import opened PyStr

  const DefaultChunkSize: nat := 1000
  const DefaultOverlap: nat := 100
  const DefaultTopK: nat := 3

  function Min(a: int, b: int): int {
    if a <= b then a else b
  }

  /** `words[start:start + size]`; Python clamps the end of a slice. */
  function Window(words: seq<string>, start: nat, size: nat): seq<string>
    requires start <= |words|
  {
    words[start..Min(start + size, |words|)]
  }

  /** Number of values `range(start, n, stride)` yields. */
  function RangeCount(start: nat, n: nat, stride: nat): nat
    requires stride > 0
    decreases n - start
  {
    if start >= n then 0 else 1 + RangeCount(start + stride, n, stride)
  }

  /** The count is the ceiling of (n - start) / stride: the fewest strides that
      reach past the last word. */
  lemma {:induction false} RangeCountIsCeiling(start: nat, n: nat, stride: nat)
    requires stride > 0
    ensures var c := RangeCount(start, n, stride);
            if start >= n then c == 0 else (c - 1) * stride < n - start <= c * stride
    decreases n - start
  {
    if start < n && start + stride < n {
      var c' := RangeCount(start + stride, n, stride);
      RangeCountIsCeiling(start + stride, n, stride);
      assert (c' + 1) * stride == c' * stride + stride;
      assert (c' - 1) * stride == c' * stride - stride;
    }
  }

  /** One chunk: the window of words at `start`, joined by single spaces. */
  function ChunkText(words: seq<string>, start: nat, size: nat): string
    requires start <= |words|
  {
    Join(" ", Window(words, start, size))
  }

  /** The chunks for `i in range(start, len(words), stride)`. */
  function ChunksFrom(words: seq<string>, start: nat, size: nat, stride: nat): (cs: seq<string>)
    requires stride > 0
    ensures |cs| == RangeCount(start, |words|, stride)
    decreases |words| - start
  {
    if start >= |words| then []
    else [ChunkText(words, start, size)] + ChunksFrom(words, start + stride, size, stride)
  }

  lemma MulSucc(a: nat, b: nat)
    ensures (a + 1) * b == a * b + b
  {
  }

  /** `j * stride`, built by repeated addition so that the induction below
      stays linear. */
  function Offset(j: nat, stride: nat): nat {
    if j == 0 then 0 else Offset(j - 1, stride) + stride
  }

  lemma {:induction false} OffsetIsProduct(j: nat, stride: nat)
    ensures Offset(j, stride) == j * stride
  {
    if j > 0 {
      OffsetIsProduct(j - 1, stride);
      MulSucc(j - 1, stride);
    }
  }

  lemma {:induction false} ChunkAtOffset(words: seq<string>, start: nat, size: nat, stride: nat, j: nat)
    requires stride > 0
    requires j < RangeCount(start, |words|, stride)
    ensures start + Offset(j, stride) < |words|
    ensures ChunksFrom(words, start, size, stride)[j] == ChunkText(words, start + Offset(j, stride), size)
    decreases j
  {
    if j > 0 {
      var rest := ChunksFrom(words, start + stride, size, stride);
      assert ChunksFrom(words, start, size, stride) == [ChunkText(words, start, size)] + rest;
      ChunkAtOffset(words, start + stride, size, stride, j - 1);
    }
  }

  /** Chunk j of the range starting at `start` is the window at start + j * stride. */
  lemma ChunkAt(words: seq<string>, start: nat, size: nat, stride: nat, j: nat)
    requires stride > 0
    requires j < RangeCount(start, |words|, stride)
    ensures start + j * stride < |words|
    ensures ChunksFrom(words, start, size, stride)[j] == Join(" ", Window(words, start + j * stride, size))
  {
    ChunkAtOffset(words, start, size, stride, j);
    OffsetIsProduct(j, stride);
  }

  /** `create_chunks(text, chunk_size, overlap)`. A zero step makes Python's
      `range` raise; a negative step gives an empty range. */
  function CreateChunks(text: string, chunkSize: nat, overlap: nat): (r: Result<seq<string>, string>)
    ensures r.Failure? <==> chunkSize == overlap
    ensures chunkSize < overlap ==> r == Success([])
  {
    if chunkSize == overlap then Failure("range() arg 3 must not be zero")
    else if chunkSize < overlap then Success([])
    else Success(ChunksFrom(SplitWords(text), 0, chunkSize, chunkSize - overlap))
  }

  /** With a positive step there are ceil(n / step) chunks for n words: the
      fewest steps that cover all n words. */
  lemma ChunkCount(text: string, chunkSize: nat, overlap: nat)
    requires chunkSize > overlap
    ensures var n := |SplitWords(text)|;
            var stride := chunkSize - overlap;
            var r := CreateChunks(text, chunkSize, overlap);
            && r.Success?
            && (n == 0 ==> r.value == [])
            && (n > 0 ==> (|r.value| - 1) * stride < n <= |r.value| * stride)
  {
    RangeCountIsCeiling(0, |SplitWords(text)|, chunkSize - overlap);
  }

  /** Empty or whitespace-only text gives no chunk. */
  lemma BlankTextNoChunks(text: string, chunkSize: nat, overlap: nat)
    requires chunkSize > overlap
    requires AllSpace(text)
    ensures CreateChunks(text, chunkSize, overlap) == Success([])
  {
    SplitWordsEmpty(text);
  }

  /** Chunk j is the words from j * step on, at most `chunkSize` of them,
      joined by single spaces; it splits back into exactly those words, so it
      has no leading, trailing or repeated whitespace (re-joining its words
      gives it back). */
  lemma ChunkWords(text: string, chunkSize: nat, overlap: nat, j: nat)
    requires chunkSize > overlap
    requires j < |CreateChunks(text, chunkSize, overlap).value|
    ensures var words := SplitWords(text);
            var c := CreateChunks(text, chunkSize, overlap).value[j];
            var start := j * (chunkSize - overlap);
            && start < |words|
            && c == Join(" ", Window(words, start, chunkSize))
            && SplitWords(c) == Window(words, start, chunkSize)
            && |SplitWords(c)| <= chunkSize
            && Join(" ", SplitWords(c)) == c
  {
    var words := SplitWords(text);
    var start := j * (chunkSize - overlap);
    ChunkAt(words, 0, chunkSize, chunkSize - overlap, j);
    WindowSplitsBack(words, start, chunkSize);
  }

  /** A window of words joined by single spaces splits back into that window. */
  lemma WindowSplitsBack(words: seq<string>, start: nat, size: nat)
    requires forall i | 0 <= i < |words| :: IsWord(words[i])
    requires start <= |words|
    ensures var w := Window(words, start, size);
            && SplitWords(Join(" ", w)) == w
            && |w| <= size
  {
    var w := Window(words, start, size);
    assert forall i | 0 <= i < |w| :: w[i] == words[start + i];
    SplitWordsJoin(w);
  }

  lemma {:induction false} CoveredFrom(words: seq<string>, start: nat, size: nat, stride: nat, w: nat)
    returns (j: nat)
    requires 0 < stride <= size
    requires start <= w < |words|
    ensures j < RangeCount(start, |words|, stride)
    ensures start + Offset(j, stride) <= w < start + Offset(j, stride) + size
    decreases w - start
  {
    if w < start + stride {
      j := 0;
    } else {
      var j' := CoveredFrom(words, start + stride, size, stride, w);
      j := j' + 1;
      OffsetFront(j', stride);
    }
  }

  lemma {:induction false} OffsetFront(j: nat, stride: nat)
    ensures Offset(j + 1, stride) == stride + Offset(j, stride)
  {
  }

  /** The chunk covering word w, on the word list. */
  lemma CoveringChunk(words: seq<string>, size: nat, stride: nat, w: nat) returns (j: nat)
    requires 0 < stride <= size
    requires w < |words|
    ensures j < RangeCount(0, |words|, stride)
    ensures j * stride <= w < j * stride + |Window(words, j * stride, size)|
  {
    j := CoveredFrom(words, 0, size, stride, w);
    OffsetIsProduct(j, stride);
  }

  /** Every word of the text (`words` is `SplitWords(text)`) lands in at least
      one of the `RangeCount(0, |words|, stride)` chunks. */
  lemma EveryWordCovered(words: seq<string>, chunkSize: nat, overlap: nat, w: nat)
    requires chunkSize > overlap
    requires w < |words|
    ensures exists j | 0 <= j < RangeCount(0, |words|, chunkSize - overlap) ::
              ChunkCovers(words, chunkSize, overlap, j, w)
  {
    var j := CoveringChunk(words, chunkSize, chunkSize - overlap, w);
    assert ChunkCovers(words, chunkSize, overlap, j, w);
  }

  /** Word w lies in the window of chunk j, which starts at j * (chunkSize - overlap). */
  predicate ChunkCovers(words: seq<string>, chunkSize: nat, overlap: nat, j: nat, w: nat)
    requires chunkSize > overlap
  {
    var start := j * (chunkSize - overlap);
    start <= w && start <= |words| && w < start + |Window(words, start, chunkSize)|
  }

  /** A full chunk shares exactly `overlap` words with the next one: its last
      `overlap` words are the next chunk's first (`words` is `SplitWords(text)`). */
  lemma ConsecutiveOverlap(words: seq<string>, chunkSize: nat, overlap: nat, j: nat)
    requires chunkSize > overlap
    requires j * (chunkSize - overlap) + chunkSize <= |words|
    ensures var stride := chunkSize - overlap;
            var here := Window(words, j * stride, chunkSize);
            var next := Window(words, (j + 1) * stride, chunkSize);
            |here| == chunkSize && |next| >= overlap && here[stride..] == next[..overlap]
  {
    MulSucc(j, chunkSize - overlap);
    WindowOverlap(words, j * (chunkSize - overlap), chunkSize, chunkSize - overlap);
  }

  /** Two full windows `stride` apart share their last and first
      `size - stride` words. */
  lemma WindowOverlap(words: seq<string>, t: nat, size: nat, stride: nat)
    requires 0 < stride <= size && t + size <= |words|
    ensures |Window(words, t, size)| == size
    ensures |Window(words, t + stride, size)| >= size - stride
    ensures Window(words, t, size)[stride..] == Window(words, t + stride, size)[..size - stride]
  {
    var here := Window(words, t, size);
    var next := Window(words, t + stride, size);
    assert here == words[t..t + size];
    assert next[..size - stride] == words[t + stride..t + size];
    assert here[stride..] == words[t + stride..t + size];
  }

  /** With the defaults (1000 words, 100 overlap) a 1000-word text gives two
      chunks, the second being its last 100 words. */
  lemma DefaultsOnThousandWords(text: string)
    requires |SplitWords(text)| == 1000
    ensures var r := CreateChunks(text, DefaultChunkSize, DefaultOverlap);
            && r.Success? && |r.value| == 2
            && r.value[1] == Join(" ", SplitWords(text)[900..])
  {
    var words := SplitWords(text);
    assert RangeCount(0, 1000, 900) == 2 by {
      assert RangeCount(1800, 1000, 900) == 0;
      assert RangeCount(900, 1000, 900) == 1;
    }
    ChunkAt(words, 0, 1000, 900, 1);
    assert Window(words, 900, 1000) == words[900..];
  }

  // ---------------------------------------------------------------------------
  // the stored memory

  /** What the code observes of a FAISS flat index: its vector count. */
  datatype FlatIndex = FlatIndex(ntotal: nat)

  datatype Memory = Memory(index: Option<FlatIndex>, documents: seq<string>, urls: seq<string>)

  /** A fresh `Memory()`. */
  const EmptyMemory := Memory(None, [], [])

  predicate Aligned(m: Memory) {
    |m.documents| == |m.urls|
  }

  function Repeat<T>(x: T, n: nat): (r: seq<T>)
    ensures |r| == n && forall i | 0 <= i < n :: r[i] == x
  {
    if n == 0 then [] else [x] + Repeat(x, n - 1)
  }

  /** `process_document(content, url)` with the default chunking. The index is
      created on first use, which is a foreign call: `indexFailure` is the
      exception it raises, if any. The vector add is commented out in the
      source, so the index never gains a vector. */
  function ProcessDocument(m: Memory, content: string, url: string, indexFailure: Option<string>)
    : (r: Result<(Memory, nat), string>)
    ensures r.Failure? <==> m.index.None? && indexFailure.Some?
    ensures r.Failure? ==> r.error == indexFailure.value
    ensures r.Success? ==>
      var (m', count) := r.value;
      var chunks := CreateChunks(content, DefaultChunkSize, DefaultOverlap).value;
      && count == |chunks|
      && m'.documents == m.documents + chunks
      && |m'.urls| == |m.urls| + count
      && m'.urls[..|m.urls|] == m.urls
      && (forall i | |m.urls| <= i < |m'.urls| :: m'.urls[i] == url)
      && m'.index.Some?
      && m'.index.value.ntotal == (if m.index.Some? then m.index.value.ntotal else 0)
  {
    var chunks := CreateChunks(content, DefaultChunkSize, DefaultOverlap).value;
    if m.index.None? && indexFailure.Some? then Failure(indexFailure.value)
    else
      var index := if m.index.None? then FlatIndex(0) else m.index.value;
      Success((Memory(Some(index), m.documents + chunks, m.urls + Repeat(url, |chunks|)), |chunks|))
  }

  /** Processing keeps `documents` and `urls` the same length. */
  lemma ProcessKeepsAligned(m: Memory, content: string, url: string, indexFailure: Option<string>)
    requires Aligned(m)
    requires ProcessDocument(m, content, url, indexFailure).Success?
    ensures Aligned(ProcessDocument(m, content, url, indexFailure).value.0)
  {
  }

  // ---------------------------------------------------------------------------
  // search

  datatype Hit = Hit(content: string, url: string)

  /** Python's `xs[i]`: a negative index counts from the end. */
  function PyIndex<T>(xs: seq<T>, i: int): (r: Option<T>)
    ensures r.Some? <==> -|xs| <= i < |xs|
    ensures 0 <= i < |xs| ==> r == Some(xs[i])
    ensures -|xs| <= i < 0 ==> r == Some(xs[|xs| + i])
  {
    if 0 <= i < |xs| then Some(xs[i])
    else if -|xs| <= i < 0 then Some(xs[|xs| + i])
    else None
  }

  /** The positions the `idx < len(documents)` filter lets through, in order. */
  function Kept(hits: seq<int>, n: nat): (r: seq<int>)
    ensures |r| <= |hits|
    ensures forall j | 0 <= j < |r| :: r[j] < n && r[j] in hits
    ensures forall j | 0 <= j < |hits| :: hits[j] < n ==> hits[j] in r
  {
    if |hits| == 0 then []
    else
      var rest := Kept(hits[1..], n);
      assert forall j | 1 <= j < |hits| :: hits[j] == hits[1..][j - 1];
      if hits[0] < n then [hits[0]] + rest else rest
  }

  /** `Kept` is the filter `idx < n` and keeps the answer's order: a single
      position is kept exactly when it is below n, and the positions kept from
      two pieces of an answer are those of the first piece followed by those of
      the second. */
  lemma {:induction false} KeptIsFilter(a: seq<int>, b: seq<int>, n: nat, h: int)
    ensures Kept([h], n) == if h < n then [h] else []
    ensures Kept(a + b, n) == Kept(a, n) + Kept(b, n)
    decreases |a|
  {
    assert [h][1..] == [];
    if |a| == 0 {
      assert a + b == b;
    } else {
      assert (a + b)[1..] == a[1..] + b;
      KeptIsFilter(a[1..], b, n, h);
    }
  }

  /** The list position Python reads for index `h` (already checked to be
      at least -n). */
  function Position(n: nat, h: int): int {
    if h < 0 then n + h else h
  }

  /** hits[j] is the document and url at the position of kept[j]. */
  predicate Paired(hits: seq<Hit>, documents: seq<string>, urls: seq<string>, kept: seq<int>)
    requires |documents| == |urls|
  {
    && |hits| == |kept|
    && forall j | 0 <= j < |kept| ::
         0 <= Position(|documents|, kept[j]) < |documents|
         && hits[j] == Hit(documents[Position(|documents|, kept[j])], urls[Position(|documents|, kept[j])])
  }

  lemma PairedCons(hits: seq<Hit>, documents: seq<string>, urls: seq<string>, kept: seq<int>, h: int)
    requires |documents| == |urls|
    requires Paired(hits, documents, urls, kept)
    requires -|documents| <= h < |documents|
    ensures Paired([Hit(documents[Position(|documents|, h)], urls[Position(|documents|, h)])] + hits,
                   documents, urls, [h] + kept)
  {
  }

  /** The loop of `search` over the index's answer, as written. */
  function ResolveHits(documents: seq<string>, urls: seq<string>, hits: seq<int>): (r: Result<seq<Hit>, string>)
    requires |documents| == |urls|
    ensures r.Success? <==> forall j | 0 <= j < |hits| :: -|documents| <= hits[j]
    ensures r.Success? ==> Paired(r.value, documents, urls, Kept(hits, |documents|))
  {
    if |hits| == 0 then Success([])
    else
      var h := hits[0];
      var rest := ResolveHits(documents, urls, hits[1..]);
      assert forall j | 1 <= j < |hits| :: hits[j] == hits[1..][j - 1];
      if h >= |documents| then
        assert Kept(hits, |documents|) == Kept(hits[1..], |documents|);
        rest
      else if h < -|documents| then Failure("list index out of range")
      else if rest.Failure? then rest
      else
        var p := Position(|documents|, h);
        PairedCons(rest.value, documents, urls, Kept(hits[1..], |documents|), h);
        Success([Hit(documents[p], urls[p])] + rest.value)
  }

  /** `search(query, k)`. The query embedding and the FAISS search are foreign:
      `answer` is the row of positions the index returns, or the exception
      raised on the way. */
  function Search(m: Memory, answer: Result<seq<int>, string>): (r: Result<seq<Hit>, string>)
    requires Aligned(m)
    ensures m.index.None? || m.index.value.ntotal == 0 ==> r == Success([])
    ensures r.Success? && answer.Success? ==> |r.value| <= |answer.value|
    ensures m.index.Some? && m.index.value.ntotal > 0 && answer.Failure? ==> r == Failure(answer.error)
    ensures m.index.Some? && m.index.value.ntotal > 0 && answer.Success? ==>
      && (r.Success? <==> forall j | 0 <= j < |answer.value| :: -|m.documents| <= answer.value[j])
      && (r.Success? ==> Paired(r.value, m.documents, m.urls, Kept(answer.value, |m.documents|)))
  {
    if m.index.None? || m.index.value.ntotal == 0 then Success([])
    else if answer.Failure? then Failure(answer.error)
    else ResolveHits(m.documents, m.urls, answer.value)
  }

  /** FAISS returns k positions per query, so at most k hits come back, each
      pairing a stored chunk with its own url, in the index's order. */
  lemma SearchHitsPaired(m: Memory, hits: seq<int>, k: nat)
    requires Aligned(m)
    requires |hits| == k
    requires Search(m, Success(hits)).Success?
    ensures var r := Search(m, Success(hits)).value;
            && |r| <= k
            && (m.index.Some? && m.index.value.ntotal > 0 ==> Paired(r, m.documents, m.urls, Kept(hits, |m.documents|)))
            && forall j | 0 <= j < |r| :: exists p | 0 <= p < |m.documents| ::
                 r[j] == Hit(m.documents[p], m.urls[p])
  {
    var r := Search(m, Success(hits)).value;
    if m.index.Some? && m.index.value.ntotal > 0 {
      var kept := Kept(hits, |m.documents|);
      forall j | 0 <= j < |r|
        ensures exists p | 0 <= p < |m.documents| :: r[j] == Hit(m.documents[p], m.urls[p])
      {
        var p := Position(|m.documents|, kept[j]);
        assert r[j] == Hit(m.documents[p], m.urls[p]);
      }
    }
  }

  /** Because the vector add is commented out, search answers [] after any
      processing, whatever the index would have said. */
  lemma SearchEmptyAfterProcessing(m: Memory, content: string, url: string,
                                   indexFailure: Option<string>, answer: Result<seq<int>, string>)
    requires Aligned(m)
    requires m.index.None? || m.index.value.ntotal == 0
    requires ProcessDocument(m, content, url, indexFailure).Success?
    ensures var m' := ProcessDocument(m, content, url, indexFailure).value.0;
            Aligned(m') && Search(m', answer) == Success([])
  {
  }

  // ---------------------------------------------------------------------------
  // the padding slots of a FAISS answer

  /** FAISS pads the answer with -1 when k exceeds the stored vectors. As
      written, -1 passes the `idx < len(documents)` filter and Python reads it as
      the last chunk: one stored chunk and k = 3 give that chunk three times. */
  lemma PaddingRepeatsLastChunk()
    ensures var m := Memory(Some(FlatIndex(1)), ["only chunk"], ["u"]);
            var d := Hit("only chunk", "u");
            Search(m, Success([0, -1, -1])) == Success([d, d, d])
  {
    var docs: seq<string> := ["only chunk"];
    var urls: seq<string> := ["u"];
    var d := Hit("only chunk", "u");
    assert [-1][1..] == [];
    assert ResolveHits(docs, urls, [-1]).value == [d];
    assert [-1, -1][1..] == [-1];
    assert ResolveHits(docs, urls, [-1, -1]).value == [d, d];
    assert [0, -1, -1][1..] == [-1, -1];
    assert ResolveHits(docs, urls, [0, -1, -1]).value == [d, d, d];
  }

  /** The filter the code evidently intends: only real positions
      `0 <= idx < len(documents)` are looked up. */
  function KeptValid(hits: seq<int>, n: nat): (r: seq<nat>)
    ensures |r| <= |hits|
    ensures forall j | 0 <= j < |r| :: r[j] < n && r[j] in hits
    ensures forall j | 0 <= j < |hits| :: 0 <= hits[j] < n ==> hits[j] in r
  {
    if |hits| == 0 then []
    else
      var rest := KeptValid(hits[1..], n);
      assert forall j | 1 <= j < |hits| :: hits[j] == hits[1..][j - 1];
      if 0 <= hits[0] < n then [hits[0] as nat] + rest else rest
  }

  /** The corrected filter keeps a position exactly when it is a real one,
      and keeps the answer's order. */
  lemma {:induction false} KeptValidIsFilter(a: seq<int>, b: seq<int>, n: nat, h: int)
    ensures KeptValid([h], n) == if 0 <= h < n then [h as nat] else []
    ensures KeptValid(a + b, n) == KeptValid(a, n) + KeptValid(b, n)
    decreases |a|
  {
    assert [h][1..] == [];
    if |a| == 0 {
      assert a + b == b;
    } else {
      assert (a + b)[1..] == a[1..] + b;
      KeptValidIsFilter(a[1..], b, n, h);
    }
  }

  /** Search with padding slots and other invalid positions dropped: it never
      raises on an aligned memory, and returns one hit per valid position. */
  function SearchCorrected(m: Memory, answer: Result<seq<int>, string>): (r: Result<seq<Hit>, string>)
    requires Aligned(m)
    ensures m.index.None? || m.index.value.ntotal == 0 ==> r == Success([])
    ensures answer.Success? ==> r.Success?
    ensures r.Success? && answer.Success? && m.index.Some? && m.index.value.ntotal > 0 ==>
      var kept := KeptValid(answer.value, |m.documents|);
      && |r.value| == |kept|
      && forall j | 0 <= j < |kept| :: r.value[j] == Hit(m.documents[kept[j]], m.urls[kept[j]])
  {
    if m.index.None? || m.index.value.ntotal == 0 then Success([])
    else if answer.Failure? then Failure(answer.error)
    else
      var kept := KeptValid(answer.value, |m.documents|);
      Success(seq(|kept|, j requires 0 <= j < |kept| => Hit(m.documents[kept[j]], m.urls[kept[j]])))
  }

  /** On the padded answer the corrected search returns the stored chunk once. */
  lemma PaddingDroppedWhenCorrected()
    ensures var m := Memory(Some(FlatIndex(1)), ["only chunk"], ["u"]);
            SearchCorrected(m, Success([0, -1, -1])) == Success([Hit("only chunk", "u")])
  {
    assert [0, -1, -1][1..] == [-1, -1];
    assert [-1, -1][1..] == [-1];
    assert [-1][1..] == [];
    assert KeptValid([-1], 1) == [];
    assert KeptValid([-1, -1], 1) == [];
    assert KeptValid([0, -1, -1], 1) == [0];
    var m := Memory(Some(FlatIndex(1)), ["only chunk"], ["u"]);
    var r := SearchCorrected(m, Success([0, -1, -1]));
    assert |r.value| == 1 && r.value[0] == Hit("only chunk", "u");
    assert r.value == [Hit("only chunk", "u")];
  }
}

=== FILE: wrappers.dfy ===
/** Failure-carrying wrappers used throughout the model: a missing value, and a
    value or the text of the exception Python would have raised instead. */
module Wrappers {

  datatype Option<+T> = None | Some(value: T) {
    function GetOr(default: T): T {
      match this
      case Some(v) => v
      case None => default
    }
  }

  datatype Result<+R, +E> = Success(value: R) | Failure(error: E) {
    predicate IsFailure() {
      Failure?
    }

    function PropagateFailure<U>(): Result<U, E>
      requires Failure?
    {
      Failure(error)
    }

    function Extract(): R
      requires Success?
    {
      value
    }
  }
}
